=== FILE: README.md ===
# threads-graph-api client core, in Dafny

A model of the TypeScript client for the Threads Graph API. It covers the two files
that decide what the client sends and how it reads what comes back:

- `src/api-client.ts`:
  - the error class `ThreadsApiError`;
  - the public client (`_apiGet`, `_apiPost`, `createAuthorizationUrl`, `exchangeAuthorizationCode`);
  - the authenticated client, which merges its token into every call and adds the endpoint methods.
- `src/types.ts`: the zod response schemas, their enums, the typed records read out of
  them, and the request parameter types, including the `XOR` that keeps cursor and
  time-range pagination apart.

A call is modelled as a `Call`: the `Request` it sends and the `Outcome` its promise
settles to. The JSON value the server's reply parses to is an input.

- A GET is its URL. Its contracts say what the query after `endpoint?` decodes to, as
  an application/x-www-form-urlencoded list of pairs.
- A POST is its URL and the ordered entries of its `FormData`.
- The outcome is one of:
  - the parsed reply;
  - a `ThreadsApiError`, which carries the error envelope when the reply fits `ErrorResponseSchema`;
  - a zod error;
  - the `TypeError` of reading `.error` of `null`.

Modules, one file each:

| module | file | what it holds |
|---|---|---|
| `Wrappers` | `wrappers.dfy` | `Option` |
| `Strings` | `strings.dfy` | `Array.prototype.join` with its inverse split, and the decimal text of `n + ''` |
| `Json` | `json.dfy` | the parsed JSON value, JavaScript truthiness, `String(value)` |
| `Zod` | `zod.dfy` | the zod fragment the schemas use |
| `Params` | `params.dfy` | the untyped params record, object spread, and the GET and POST filters |
| `FormUrlEncoded` | `form_urlencoded.dfy` | the serializer and parser of sections 5.1 and 5.2 of the WHATWG URL Standard, which `URLSearchParams` uses |
| `Types` | `types.dfy` | `src/types.ts` |
| `ApiClient` | `api_client.dfy` | `src/api-client.ts` |

How the zod fragment works:

- `Accepts` says which values a schema admits.
- `SafeParse` builds zod's output: unknown members dropped, missing optionals left out,
  `z.coerce.string()` applied.
- The schemas are `Schema` constants.

How the source's forms carry over:

- The `FormData` the POST helpers fill is a class whose `Append` method extends its entry list.
  - `_apiPost` fills it in a loop.
  - `exchangeAuthorizationCode` fills it with five appends.
- The two client classes keep their readonly fields as `const` fields of Dafny classes.
- `ThreadsAuthenticatedApiClient extends ThreadsPublicApiClient` becomes a `client` field
  holding the public client.

`src/api-client.ts:8-9` imports `ExchangeAuthorizationCodeResponse(Schema)`.
`src/types.ts:49-55` exports `ExchangeAuthenticationCodeResponse(Schema)`. The model
treats them as one schema, `ExchangeAuthenticationCodeResponseSchema`.

## Model

| member | source | states |
|---|---|---|
| ApiClient.ThreadsApiError.Message | src/api-client.ts:45-48 | The message is never empty. It is the envelope's `error.message` when that is present and non-empty, and `An unknown error occurred` otherwise. |
| ApiClient.Classify | src/api-client.ts:93-98 | A `null` reply throws a `TypeError`. A reply with a truthy `error` throws a `ThreadsApiError`, carrying the envelope exactly when the reply fits `ErrorResponseSchema`. Any other reply is returned exactly when the endpoint schema accepts it; what is returned is then the schema's parse of the reply, and it parses to itself again. |
| ApiClient.ApiErrorMessage | src/api-client.ts:94-96 | A flagged reply's error message is the reply's own non-empty `error.message` only when the whole envelope fits the schema. Otherwise it is the fallback, even when a message is present. |
| ApiClient.ClassifyExchange | src/api-client.ts:161-162 | The code exchange never throws a `ThreadsApiError` or a `TypeError`. It returns exactly when the reply is an object with a string `access_token`. The result carries that token and `user_id` coerced to a string. |
| ApiClient.ExchangeSkipsErrorCheck | src/api-client.ts:157-162 | An error reply without a string `access_token` raises a zod error in the code exchange, while the other calls raise a `ThreadsApiError` for the same reply. |
| ApiClient.QueryOfUrl | src/api-client.ts:88-89 | When `url` holds no `?` or `#`, the query of `url?` followed by the encoded pairs (the text after the first `?`, up to a `#`) decodes back to exactly those pairs. |
| ApiClient.UrlQueryAfter | src/api-client.ts:88 | After a prefix with no `?` or `#`, a URL's query is exactly the text written after the client's `?`, when that text holds no `#`. |
| ApiClient.UnescapedIdQuery | src/api-client.ts:252 | The id goes into the path unescaped. For an id `a?b`, the URL's query starts at `b` inside the path, and the query the client wrote is only its tail. |
| ApiClient.FormData.constructor | src/api-client.ts:107 | A new `FormData` holds no entries. |
| ApiClient.FormData.Append | src/api-client.ts:109 | `append` adds one entry at the end and changes nothing else. |
| ApiClient.PublicClient.constructor | src/api-client.ts:68-70 | The client keeps the base URL it is given; `https://graph.threads.net` is the default. |
| ApiClient.PublicClient.ApiGet | src/api-client.ts:76-99 | The request is a GET of `baseUrl + endpoint + '?'` with a query. When `baseUrl + endpoint` holds no `?` or `#`, that query decodes to the defined params, in the caller's key order, each stringified. The outcome is `Classify` of the reply. |
| ApiClient.PublicClient.ApiPost | src/api-client.ts:101-121 | The request is a POST to `baseUrl + endpoint` whose form holds the truthy params, in the caller's key order, each stringified. The loop invariant ties the `FormData` to the filter of the params seen so far. The outcome is `Classify` of the reply. |
| ApiClient.PublicClient.CreateAuthorizationUrl | src/api-client.ts:123-142 | The URL is `authBaseUrl + '/oauth/authorize?'`. When `authBaseUrl` holds no `?` or `#`, its query decodes to `client_id`, `redirect_uri`, `scope` (the scopes joined with `,`) and `response_type=code`, in that order. `state` comes last, and only when it is given and non-empty. |
| ApiClient.PublicClient.ExchangeAuthorizationCode | src/api-client.ts:144-163 | The request is a POST to `/oauth/access_token` of exactly `client_id`, `client_secret`, `grant_type=authorization_code`, `redirect_uri` and `code`, in that order and whatever their values. The outcome is `ClassifyExchange`. |
| ApiClient.TokenMerged | src/api-client.ts:186-193 | After `{...params, access_token}` and either filter, `access_token` is the stored token (when the filter keeps it), whatever the caller passed. Every other key is sent exactly as the caller's params alone would send it, and no key repeats. |
| ApiClient.AuthenticatedClient.constructor | src/api-client.ts:170-179 | The client keeps the token, the user id and a public client for the given base URL. |
| ApiClient.AuthenticatedClient.AuthenticatedGet | src/api-client.ts:181-194 | When the URL before the query holds no `?` or `#`, the query is exactly the GET filter of `{...params, access_token}`. It carries `access_token` = the stored token, and every other key carries what the GET filter makes of the caller's value. |
| ApiClient.AuthenticatedClient.AuthenticatedPost | src/api-client.ts:196-209 | The form is the POST filter of the params with the token merged in. `access_token` holds the token when it is non-empty, and every other key holds what the POST filter makes of the caller's value. |
| ApiClient.ListParamsQuery | src/api-client.ts:250-256 | `{fields: fields?.join(','), ...rest}` with the token, filtered for a GET, is exactly: the joined list (only when given), then the rest's defined params in the caller's order, then `access_token`. |
| ApiClient.ListQueryKeys | src/api-client.ts:247-259 | A list endpoint's query carries the token, never an `id`, and never both cursor keys and time-range keys when the rest satisfies the pagination `XOR`. |
| ApiClient.ObjectQuery | src/api-client.ts:264-271 | The object endpoints send `fields` (only when given), then `access_token`, and nothing else. |
| ApiClient.SingleParamForm | src/api-client.ts:237-245 | A one-member params object, merged with the token and filtered, is that member and then the token, each only when the filter keeps it. |
| ApiClient.ContainerLookup | src/api-client.ts:216-231 | Each key of the merged media container params holds its container value. The media-type-specific members exist only for their media type, and `access_token` is the token. |
| ApiClient.ContainerSentValues | src/api-client.ts:217-220 | `media_type` is always sent, and `reply_control` is sent whenever it is given. `text`, `reply_to_id` and `access_token` are sent only when non-empty. No key outside the nine container keys is ever sent. |
| ApiClient.ContainerMediaValues | src/api-client.ts:221-231 | `image_url` is sent only for IMAGE, `video_url` only for VIDEO, and `children` (comma-joined, when non-empty) only for CAROUSEL. `is_carousel_item` is sent only for IMAGE or VIDEO, and only as `true`. |
| ApiClient.ContainerForm | src/api-client.ts:211-235 | The POST form of a media container holds, under every key, the container value when it is truthy, and nothing otherwise. |
| ApiClient.ContainerKeys | src/api-client.ts:201-232 | Before filtering, the container's parameters hold `media_type`, `text`, `reply_control`, `reply_to_id`, then the keys of the post's own kind (`image_url` and `is_carousel_item`, `video_url` and `is_carousel_item`, `children`, or none), then `access_token`, each once. |
| ApiClient.MediaKeysInOrder | src/api-client.ts:201-232 | For every kind of post, its own keys and then the token come in the order `image_url`, `video_url`, `is_carousel_item`, `children`, `access_token`. |
| ApiClient.ContainerFormOrder | src/api-client.ts:201-235 | The filtered form lists its keys in the source's order: `media_type`, `text`, `reply_control`, `reply_to_id`, `image_url`, `video_url`, `is_carousel_item`, `children`, `access_token`, each key that is sent appearing in that order. |
| ApiClient.AuthenticatedClient.CreateMediaContainer | src/api-client.ts:211-235 | The request goes to `/v1.0/me/threads` with the form `ContainerForm` describes, in which no key repeats and the keys come in the source's order (`ContainerKeyOrder`), and the reply is checked against `CreateMediaContainerResponseSchema`. |
| ApiClient.AuthenticatedClient.Publish | src/api-client.ts:237-245 | The form is `creation_id` and then `access_token`, each only when non-empty, sent to `/v1.0/me/threads_publish`. |
| ApiClient.AuthenticatedClient.GetUserThreads | src/api-client.ts:247-259 | The request goes to `/v1.0/{id}/threads` with `id` only in the path, for a base URL and id with no `?` or `#`. The query is `fields`, the pagination params in the caller's order, then the token. |
| ApiClient.AuthenticatedClient.GetMediaObject | src/api-client.ts:261-272 | The request goes to `/v1.0/{id}` with a query of `fields` (when given) and the token. |
| ApiClient.AuthenticatedClient.GetUserProfile | src/api-client.ts:274-285 | The request goes to `/v1.0/{id}` with a query of `fields` (when given) and the token, checked against the profile schema. |
| ApiClient.AuthenticatedClient.GetUserThreadsPublishingLimit | src/api-client.ts:287-298 | The request goes to `/v1.0/{id}/threads_publishing_limit` with a query of `fields` (when given) and the token. |
| ApiClient.AuthenticatedClient.GetReplies | src/api-client.ts:300-310 | The request goes to `/v1.0/{id}/replies`. The query is `fields`, then pagination and `reverse` in the caller's order, then the token. |
| ApiClient.AuthenticatedClient.GetConversation | src/api-client.ts:312-324 | The request goes to `/v1.0/{id}/conversation`. The query is `fields`, then pagination and `reverse` in the caller's order, then the token. |
| ApiClient.AuthenticatedClient.ManageReply | src/api-client.ts:326-335 | As written: the POST to `/v1.0/{id}/manage_reply` sends `hide=true` for `hide: true` and no `hide` at all for `hide: false`; the whole form is that entry, if any, followed by `access_token` when the token is non-empty. |
| ApiClient.AuthenticatedClient.ManageReplyCorrected | src/api-client.ts:326-335 | Corrected: the form is exactly `hide` (as `true` or `false`), followed by `access_token` when the token is non-empty. |
| ApiClient.UnhideDropped | src/api-client.ts:108-110 | The POST filter drops `hide: false`, while the string `'false'` goes through. |
| ApiClient.AuthenticatedClient.GetMediaMetrics | src/api-client.ts:337-349 | The request goes to `/v1.0/{id}/insights`. The query is `metric` (the metrics comma-joined, when given), then `since`/`until` in the caller's order, then the token. |
| ApiClient.AuthenticatedClient.GetAccountMetrics | src/api-client.ts:351-363 | The request goes to `/v1.0/{id}/threads_insights` with the same query shape as the media metrics. |
| Params.Assign | src/api-client.ts:188-191 | `{...p, [key]: v}`: the key then finds `v`. An existing key keeps its place, and a new key is appended at the end. |
| Params.AssignOthers | src/api-client.ts:188-191 | Setting one key leaves every other key's value as it was. |
| Params.AssignDistinct | src/api-client.ts:188-191 | Setting a key never makes a key repeat. |
| Params.SelectFind | src/api-client.ts:81-87 | After filtering, a key is present exactly when the rule keeps its value (GET: defined; POST: truthy), and it then holds the stringified value. |
| Params.SelectOrder | src/api-client.ts:108-110 | The filtered keys are the original keys with some left out, in the same order. |
| Params.SubsequenceTrans | src/api-client.ts:108-110 | Keeping the order of a list that keeps the order of a third keeps the order of the third. |
| Params.SelectDistinct | src/api-client.ts:108-110 | The filtered list never repeats a key. |
| Params.GetReduceIsSelect | src/api-client.ts:81-87 | The `reduce` of `_apiGet` is exactly the GET filter: every defined key in order, stringified. |
| Params.SpreadFind | src/api-client.ts:253-256 | In `{...p, ...q}` a key of `q` takes `q`'s value, and any other key keeps `p`'s. |
| Params.SpreadDistinct | src/api-client.ts:221-231 | A spread never repeats a key. |
| Params.SpreadFresh | src/api-client.ts:253-256 | Spreading an object whose keys are all new appends its entries in order. |
| Strings.SplitJoin | src/api-client.ts:137 | Splitting the joined scopes on `,` gives the scopes back when none of them holds a comma and there is at least one scope. |
| Strings.IntToDecimal | src/api-client.ts:85 | `n + ''` of an integer: a minus sign exactly for negatives, then digits whose value is the magnitude, with no leading zero; zero is `0`. |
| Json.CoerceToString | src/types.ts:51 | `String(undefined)` is `undefined`, a string coerces to itself, a number to its decimal text, a boolean to `true`/`false`, `null` to `null`, an object to `[object Object]` and an empty array to the empty string. |
| FormUrlEncoded.ComponentRoundTrip | src/api-client.ts:89 | Decoding a serialized name or value gives the original string back. |
| FormUrlEncoded.SerializeNoFragment | src/api-client.ts:89 | The serializer never writes `#`, so a URL's fragment cannot cut the query short. |
| FormUrlEncoded.SerializeRoundTrip | src/api-client.ts:89 | Parsing what `URLSearchParams` serializes gives back the exact list of pairs, in order. |
| Zod.SafeParse | src/api-client.ts:95 | `safeParse` succeeds exactly when the schema accepts the value, and a present value parses to a present value. |
| Zod.ParseIdempotent | src/api-client.ts:98 | Parsing a successful parse's output again gives that same output. |
| Zod.OutputConforms | src/api-client.ts:98 | The output of a successful parse is accepted by its schema. |
| Zod.ObjectOutput | src/api-client.ts:95-96 | The output object holds, under each declared name, the output of parsing the input's member of that name. |
| Zod.ScalarMembersKept | src/types.ts:40-45 | Parsing an object keeps every string, number, boolean or enum member as it was. |
| Zod.RequiredMembersPresent | src/types.ts:266-278 | An accepted object holds every member that is neither optional nor coerced. |
| Types.PaginationXor | src/types.ts:3-6 | `XOR<TemporalPaginationParams, CursorPaginationParams>` holds exactly when `before`/`after` and `since`/`until` are not both in use. `limit` goes with either. |
| Types.PaginatedAccepts | src/types.ts:23-32 | A paginated response is accepted exactly when it is an object with a `data` array whose every item fits the item schema, and a `paging.cursors` object with optional string `before` and `after`. |
| Types.PagingAccepts | src/types.ts:26-31 | `paging` is accepted exactly when it holds a `cursors` object whose `before` and `after` are optional strings. |
| Types.ErrorEnvelopeAccepts | src/types.ts:39-46 | The error envelope is accepted exactly when `error` is an object whose `code` is an optional number and whose `fbtrace_id`, `message` and `type` are optional strings. |
| Types.DetailsAccepts | src/types.ts:40-45 | The `error` object's schema accepts exactly those four optional members. |
| Types.ParseErrorResponse | src/types.ts:39-47 | The typed envelope is present exactly when the reply fits the schema, and it then holds the reply's own four fields. |
| Types.ErrorOutput | src/types.ts:39-46 | The parsed envelope's `error` object has the same four fields as the reply's. |
| Types.DetailsOutput | src/types.ts:40-45 | Parsing the `error` object keeps its four fields. |
| Types.ExchangeAccepts | src/types.ts:49-52 | The code-exchange reply is accepted exactly when it is an object whose `access_token` is a string. `user_id` may be anything. |
| Types.ExchangeOutput | src/types.ts:49-52 | The parsed exchange reply keeps `access_token` and holds `user_id` coerced to a string. |
| Types.ParseExchangeResponse | src/types.ts:49-55 | The typed exchange reply is present exactly when the reply has a string `access_token`, and it then holds that token and the coerced `user_id`. |
| Types.ReplyMediaTypesExcludeRepostFacade | src/types.ts:135-137 | The reply media types are the media object's types except `REPOST_FACADE`. |
| Types.MediaObjectMediaType | src/types.ts:101-110 | An accepted media object's `media_type`, when present, is one of the six media types. |
| Types.ReplyMediaType | src/types.ts:135-137 | An accepted reply's `media_type`, when present, is one of the five reply media types. |
| Types.RepostFacadeReply | src/types.ts:128-137 | A reply whose `media_type` is `REPOST_FACADE` is rejected, while the media object's `media_type` member admits that value. |
| Types.ReplyHideStatus | src/types.ts:149-158 | An accepted reply's `hide_status`, when present, is one of the six statuses. |
| Types.AccountMetricsExtendMediaMetrics | src/types.ts:294-302 | The account metrics are exactly the media metrics plus `followers_count` and `follower_demographics`, which are not media metrics. |
| Types.MetricValueMembers | src/types.ts:266-278 | A media or account metric value holds `name`, `period`, `values`, `title`, `description` and `id`. |
| Types.MetricShapeMembers | src/types.ts:305-319 | The metric value shape requires those six members whatever its name enum and entry schema. |
| Types.MediaEntryAsAccountEntry | src/types.ts:310-315 | A media metric entry is an account metric entry exactly when its `end_time`, if any, is a string. |
| Types.ValuesAsAccountValues | src/types.ts:310-315 | A media `values` array is an account `values` array exactly when no entry has a non-string `end_time`. |
| Types.MetricValueTransfer | src/types.ts:305-319 | Take two metric shapes that differ only in the name enum (the media names being among the account names) and the entry schema. A value the media shape accepts is accepted by the account shape exactly when its `values` member fits the account entries. |
| Types.MediaMetricValueAsAccountMetricValue | src/types.ts:305-319 | A media metric value is an account metric value exactly when none of its entries carries a non-string `end_time`. |

## Left out

- fetch, `response.json()` and the promise machinery are not modelled. The reply's parsed JSON value is an input, and a failing fetch or a body that is not JSON is not modelled.
- The byte-level multipart encoding of `FormData` bodies is not modelled. A POST body is its ordered list of entries.
- JSON numbers are integers, so non-integer numbers are not modelled.
  - For the same reason, JavaScript's number formatting of fractions and exponents in `value + ''` is left out.
- Json.CoerceToString: integers beyond 2^53 are kept exact. JavaScript numbers are doubles, so `JSON.parse` rounds such a `user_id` and `String()` prints the rounded value (`17841400000000001` becomes `17841400000000000`). `ClassifyExchange` and `Types.ParseExchangeResponse` inherit this.
- Strings.IntToDecimal: integers beyond 2^53 are rendered digit by digit. `limit + ''` in JavaScript prints the double nearest to them.
- Json.CoerceToString: the contract pins `String(value)` of a non-empty array only through the body's `ElementsString`, not in an ensures, because `user_id` is never an array in a reply the client expects.
- zod's issue lists and error messages are left out. A failed parse is the outcome `ThrowsZodError`.
- The prototype fix-up in `ThreadsApiError` (src/api-client.ts:50-57) is a JavaScript runtime detail.
- `getThreadsError()` is not modelled separately. It is the field `threadsError` of `ThreadsApiError`.
- Object key order follows insertion order. JavaScript puts integer-like keys first, and this is not modelled; the client's keys are never integer-like.
- ApiClient.AuthenticatedClient.constructor: the `_userId` field is stored and never read by the client, so no contract mentions it beyond storing it.
- `fields` and `metrics` are lists of strings. The TypeScript element types (the schema's keys, the metric enums) are not enforced on them.
- ApiClient.PublicClient.ApiGet: the query is stated for params whose keys are distinct. A JavaScript object cannot repeat a key, so every real call meets this.
- ApiClient.AuthenticatedClient.AuthenticatedGet: the query is stated for params with distinct keys, for the same reason.
- ApiClient.AuthenticatedClient.GetUserThreads, GetMediaObject, GetUserProfile, GetUserThreadsPublishingLimit, GetReplies, GetConversation, GetMediaMetrics and GetAccountMetrics: the client puts `id` into the path unescaped (src/api-client.ts:252, 266, 279, 292, 303, 317, 342, 356). The query is therefore stated only when the base URL and the id hold no `?` or `#`. `UnescapedIdQuery` shows what an id with `?` does, and `ManageReply` (src/api-client.ts:329) states its POST URL with the raw id as the source builds it. An id with `#` cuts the query off, and the model says nothing more about it.
- ApiClient.PublicClient.ApiGet, ApiClient.AuthenticatedClient.AuthenticatedGet and ApiClient.PublicClient.CreateAuthorizationUrl: for the same reason, the query is stated only when the URL before it holds no `?` or `#`.
- ApiClient.AuthenticatedClient.GetUserThreads: the query is stated when the remaining params have distinct keys and fit the declared parameter type. The same holds for `GetReplies`, `GetConversation`, `GetMediaMetrics` and `GetAccountMetrics`. This is what the TypeScript parameter types admit. An untyped caller that passes an `access_token` or `fields` of its own is covered only by `TokenMerged` and `SpreadFind`.
- The UTF-8 decoder of `FormUrlEncoded` handles every well-formed input exactly. For malformed input it is a simplification: each bad byte becomes U+FFFD. Only the round trip of serializer output depends on it.
- Dafny strings hold Unicode scalar values, so a JavaScript string with a lone surrogate cannot be represented.
- mock-server/index.ts is not part of this model; it only starts an HTTP listener.

## Findings

| source | as written | input that shows it | evidently intended | confidence | as-written member | corrected member |
|---|---|---|---|---|---|---|
| src/api-client.ts:326-335 | `manageReply` passes `hide` through `_apiPost`, whose filter (src/api-client.ts:108-110) appends only truthy values. `hide: false` is therefore never sent, and a hidden reply cannot be unhidden. | `manageReply({id: 'r1', hide: false})` sends a form with only `access_token` | send `hide=false` | not executed | ApiClient.AuthenticatedClient.ManageReply | ApiClient.AuthenticatedClient.ManageReplyCorrected |

=== FILE: api_client.dfy ===
/** `src/api-client.ts`: the error class, the public client (its GET and POST helpers,
    the authorization URL and the code exchange) and the authenticated client with its
    endpoints. A call is modelled as the request it sends and the outcome it settles
    to, given the JSON value the server's reply parses to. */
module ApiClient {
  import opened Wrappers
  import opened Json
  import opened Zod
  import opened Params
  import opened Types
  import Strings
  import FormUrlEncoded

  const DefaultBaseUrl: string := "https://graph.threads.net"
  const DefaultAuthorizeBaseUrl: string := "https://www.threads.net"
  const UnknownErrorMessage: string := "An unknown error occurred"

  // ---------------------------------------------------------------- errors

  /** `ThreadsApiError`: the error envelope of the reply when it fit the error schema
      (`getThreadsError()` reads it back), and the message handed to `Error`. */
  datatype ThreadsApiError = ThreadsApiError(threadsError: Option<ErrorResponse>)
  {
    /** `error?.error.message || 'An unknown error occurred'`. */
    function Message(): (m: string)
      ensures m != ""
      ensures threadsError.Some? && threadsError.value.error.message.Some?
              && threadsError.value.error.message.value != ""
              ==> m == threadsError.value.error.message.value
      ensures threadsError.None? || threadsError.value.error.message.None?
              || threadsError.value.error.message.value == ""
              ==> m == UnknownErrorMessage
    {
      match threadsError
      case Some(ErrorResponse(ErrorDetails(_, _, Some(message), _))) =>
        if message != "" then message else UnknownErrorMessage
      case _ => UnknownErrorMessage
    }
  }

  /** How a call settles: the parsed reply, or one of the three errors it can throw. */
  datatype Outcome<T> =
    | Returned(value: T)
    | ThrowsApiError(error: ThreadsApiError)
    | ThrowsZodError
    | ThrowsTypeError

  /** `(json as any).error` is truthy. */
  predicate ErrorFlagged(reply: Json) {
    Member(reply, "error").Some? && Member(reply, "error").value.Truthy()
  }

  /** The reply handling shared by `_apiGet` and `_apiPost`: reading `.error` of `null`
      throws a `TypeError`; a truthy `error` throws a `ThreadsApiError` carrying the
      envelope exactly when it fits `ErrorResponseSchema`; anything else goes through
      `responseSchema.parse`. */
  function Classify(schema: Schema, reply: Json): (r: Outcome<Json>)
    ensures r.ThrowsTypeError? <==> reply.JNull?
    ensures r.ThrowsApiError? <==> !reply.JNull? && ErrorFlagged(reply)
    ensures r.ThrowsApiError? ==>
      (r.error.threadsError.Some? <==> Accepts(ErrorResponseSchema, Some(reply)))
      && r.error.threadsError == ParseErrorResponse(reply)
    ensures r.Returned? <==> !reply.JNull? && !ErrorFlagged(reply) && Accepts(schema, Some(reply))
    ensures r.Returned? ==> SafeParse(schema, Some(reply)) == Success(Some(r.value))
    ensures r.Returned? && WellFormed(schema) ==>
      SafeParse(schema, Some(r.value)) == Success(Some(r.value))
  {
    if reply.JNull? then ThrowsTypeError
    else if ErrorFlagged(reply) then ThrowsApiError(ThreadsApiError(ParseErrorResponse(reply)))
    else
      match SafeParse(schema, Some(reply))
      case Success(Some(value)) =>
        assert WellFormed(schema) ==> SafeParse(schema, Some(value)) == Success(Some(value)) by {
          if WellFormed(schema) {
            ParseIdempotent(schema, Some(reply));
          }
        }
        Returned(value)
      case _ => ThrowsZodError
  }

  /** The `message` member of the reply's `error` object, when it is a string. */
  function ReplyMessage(reply: Json): Option<string> {
    if Member(reply, "error").Some? then StringMember(Member(reply, "error").value, "message")
    else None
  }

  /** The message of the error a flagged reply raises is the reply's own non-empty
      `error.message` when the whole envelope fits the error schema, and the fallback
      otherwise, even when a message is present but some other field is malformed. */
  lemma ApiErrorMessage(schema: Schema, reply: Json)
    requires Classify(schema, reply).ThrowsApiError?
    ensures Classify(schema, reply).error.Message() ==
      if Accepts(ErrorResponseSchema, Some(reply)) && ReplyMessage(reply).Some?
         && ReplyMessage(reply).value != ""
      then ReplyMessage(reply).value else UnknownErrorMessage
  {
  }

  /** `ExchangeAuthorizationCodeResponseSchema.parse(json)` with no error check first:
      it throws only a `ZodError`. */
  function ClassifyExchange(reply: Json): (r: Outcome<ExchangeAuthenticationCodeResponse>)
    ensures !r.ThrowsApiError? && !r.ThrowsTypeError?
    ensures r.Returned? <==> reply.JObject? && StringMember(reply, "access_token").Some?
    ensures r.Returned? ==>
      r.value.accessToken == StringMember(reply, "access_token").value
      && r.value.userId == CoerceToString(Member(reply, "user_id"))
  {
    match ParseExchangeResponse(reply)
    case Some(response) => Returned(response)
    case None => ThrowsZodError
  }

  /** An error reply that the other calls turn into a `ThreadsApiError` reaches the code
      exchange's caller as a `ZodError`, its error details lost. */
  lemma ExchangeSkipsErrorCheck(schema: Schema, reply: Json)
    requires ErrorFlagged(reply) && StringMember(reply, "access_token").None?
    ensures ClassifyExchange(reply) == ThrowsZodError
    ensures Classify(schema, reply).ThrowsApiError?
  {
  }

  // -------------------------------------------------------------- requests

  /** What goes over the wire: a GET of a URL, or a POST of form entries to a URL. */
  datatype Request = Get(url: string) | Post(url: string, form: Pairs)

  /** A call: the request sent, and how the returned promise settles. */
  datatype Call<T> = Call(request: Request, outcome: Outcome<T>)

  /** Text that can sit before a URL's query without ending the path early: no `?`
      (which starts the query) and no `#` (which starts the fragment). */
  predicate UrlSafe(s: string) {
    '?' !in s && '#' !in s
  }

  /** The query of a URL as a URL parser finds it: the text after the first `?`, up to
      the next `#`; None when there is no `?` or a `#` comes before it. */
  function UrlQuery(url: string): Option<string> {
    if url == [] then None
    else if url[0] == '#' then None
    else if url[0] == '?' then Some(FormUrlEncoded.SplitAtFirst(url[1..], '#').0)
    else UrlQuery(url[1..])
  }

  /** The pairs a GET request's URL carries, when it starts with `url?`: its query,
      decoded as application/x-www-form-urlencoded. */
  function QueryAfter(r: Request, url: string): Option<Pairs> {
    if r.Get? && |url| < |r.url| && r.url[..|url| + 1] == url + "?" && UrlQuery(r.url).Some? then
      Some(FormUrlEncoded.Parse(UrlQuery(r.url).value))
    else None
  }

  /** After a prefix with no `?` or `#`, the first `?` is the one written after it. */
  lemma {:induction false} UrlQueryAfter(prefix: string, q: string)
    requires UrlSafe(prefix) && '#' !in q
    ensures UrlQuery(prefix + "?" + q) == Some(q)
  {
    UrlQuerySkip(prefix, "?" + q);
    assert prefix + "?" + q == prefix + ("?" + q);
    assert ("?" + q)[1..] == q;
    FormUrlEncoded.SplitAtFirstAbsent(q, '#');
  }

  /** A prefix with no `?` or `#` does not change where the query is found. */
  lemma {:induction false} UrlQuerySkip(prefix: string, rest: string)
    requires UrlSafe(prefix)
    ensures UrlQuery(prefix + rest) == UrlQuery(rest)
  {
    if prefix != [] {
      assert prefix[0] in prefix;
      assert (prefix + rest)[0] == prefix[0] && prefix[0] != '?' && prefix[0] != '#';
      assert (prefix + rest)[1..] == prefix[1..] + rest;
      assert UrlSafe(prefix[1..]) by {
        forall i | 0 <= i < |prefix[1..]| ensures prefix[1..][i] == prefix[i + 1] { }
      }
      UrlQuerySkip(prefix[1..], rest);
    } else {
      assert prefix + rest == rest;
    }
  }

  /** The client writes `id` into the path unescaped: for an id `a?b`, the URL's query
      starts at `b`, inside the path, and the query the client wrote is only its tail. */
  lemma UnescapedIdQuery(baseUrl: string, a: string, b: string, suffix: string, query: string)
    requires UrlSafe(baseUrl) && UrlSafe(a) && '#' !in b + suffix + "?" + query
    ensures UrlQuery(baseUrl + "/v1.0/" + (a + "?" + b) + suffix + "?" + query)
         == Some(b + suffix + "?" + query)
  {
    var prefix := baseUrl + "/v1.0/" + a;
    assert UrlSafe("/v1.0/");
    assert UrlSafe(prefix) by {
      forall i | 0 <= i < |prefix| ensures prefix[i] != '?' && prefix[i] != '#' {
        if i < |baseUrl| {
          assert prefix[i] == baseUrl[i];
        } else if i < |baseUrl| + 6 {
          assert prefix[i] == "/v1.0/"[i - |baseUrl|];
        } else {
          assert prefix[i] == a[i - |baseUrl| - 6];
        }
      }
    }
    assert baseUrl + "/v1.0/" + (a + "?" + b) + suffix + "?" + query
        == prefix + "?" + (b + suffix + "?" + query);
    UrlQueryAfter(prefix, b + suffix + "?" + query);
  }

  lemma QueryOfUrl(url: string, pairs: Pairs)
    requires UrlSafe(url)
    ensures QueryAfter(Get(url + "?" + FormUrlEncoded.Serialize(pairs)), url) == Some(pairs)
  {
    var full := url + "?" + FormUrlEncoded.Serialize(pairs);
    assert full[..|url| + 1] == url + "?";
    FormUrlEncoded.SerializeNoFragment(pairs);
    UrlQueryAfter(url, FormUrlEncoded.Serialize(pairs));
    FormUrlEncoded.SerializeRoundTrip(pairs);
  }

  /** The `FormData` a POST sends: its entries in the order they were appended. */
  class FormData {
    var entries: Pairs

    constructor()
      ensures entries == []
    {
      entries := [];
    }

    method Append(name: string, value: string)
      modifies this
      ensures entries == old(entries) + [(name, value)]
    {
      entries := entries + [(name, value)];
    }
  }

  /** `fields?.join(',')` and `metrics?.join(',')`. */
  function Joined(list: Option<seq<string>>): Value {
    if list.Some? then Str(Strings.Join(list.value, ',')) else Undefined
  }

  function OptionalStr(s: Option<string>): Value {
    if s.Some? then Str(s.value) else Undefined
  }

  function OptionalBool(b: Option<bool>): Value {
    if b.Some? then Bool(b.value) else Undefined
  }

  /** A string member that is sent only when it is present and not empty. */
  function NonEmpty(s: Option<string>): Option<string> {
    if s.Some? && s.value != "" then s else None
  }

  // --------------------------------------------------------- public client

  /** `ThreadsPublicApiClient`. */
  class PublicClient {
    const baseUrl: string

    constructor(baseUrl: string := DefaultBaseUrl)
      ensures this.baseUrl == baseUrl
    {
      this.baseUrl := baseUrl;
    }

    /** `_apiUrl`. */
    function ApiUrl(endpoint: string): string {
      baseUrl + endpoint
    }

    /** `_apiGet`: the URL is the endpoint's, `?`, and a query that decodes to the
        defined params in the caller's order, each stringified; the reply is handled by
        `Classify`. */
    function ApiGet(endpoint: string, params: Params, schema: Schema, reply: Json): (r: Call<Json>)
      ensures r.request.Get?
      ensures UrlSafe(ApiUrl(endpoint)) && DistinctKeys(params) ==>
        QueryAfter(r.request, ApiUrl(endpoint)) == Some(Select(params, KeepDefined))
      ensures r.outcome == Classify(schema, reply)
    {
      var query := GetReduce(params);
      assert UrlSafe(ApiUrl(endpoint)) ==>
        QueryAfter(Get(ApiUrl(endpoint) + "?" + FormUrlEncoded.Serialize(query)), ApiUrl(endpoint)) == Some(query) by {
        if UrlSafe(ApiUrl(endpoint)) {
          QueryOfUrl(ApiUrl(endpoint), query);
        }
      }
      assert DistinctKeys(params) ==> query == Select(params, KeepDefined) by {
        if DistinctKeys(params) {
          GetReduceIsSelect(params);
        }
      }
      Call(Get(ApiUrl(endpoint) + "?" + FormUrlEncoded.Serialize(query)), Classify(schema, reply))
    }

    /** `_apiPost`: the body holds the truthy params in the caller's order, each
        stringified, appended one by one. */
    method ApiPost(endpoint: string, params: Params, schema: Schema, reply: Json)
      returns (r: Call<Json>)
      ensures r.request == Post(ApiUrl(endpoint), Select(params, KeepTruthy))
      ensures r.outcome == Classify(schema, reply)
    {
      var body := new FormData();
      var i := 0;
      while i < |params|
        invariant 0 <= i <= |params|
        invariant body.entries == Select(params[..i], KeepTruthy)
      {
        var (key, value) := params[i];
        assert params[..i + 1][..i] == params[..i];
        if value.Truthy() {
          body.Append(key, Stringify(value));
        }
        i := i + 1;
      }
      assert params[..|params|] == params;
      r := Call(Post(ApiUrl(endpoint), body.entries), Classify(schema, reply));
    }

    /** `createAuthorizationUrl`: `authBaseUrl/oauth/authorize?` and a query decoding to
        `client_id`, `redirect_uri`, `scope` (comma-joined) and `response_type=code`,
        in that order, then `state` only when it is given and not empty. */
    function CreateAuthorizationUrl(clientId: string, redirectUri: string, scope: seq<string>,
                                    state: Option<string> := None,
                                    authBaseUrl: string := DefaultAuthorizeBaseUrl): (r: string)
      ensures UrlSafe(authBaseUrl) ==> QueryAfter(Get(r), authBaseUrl + "/oauth/authorize") == Some(
        [("client_id", clientId), ("redirect_uri", redirectUri),
         ("scope", Strings.Join(scope, ',')), ("response_type", "code")]
        + StatePair(state))
    {
      var record := [("client_id", clientId), ("redirect_uri", redirectUri),
                     ("scope", Strings.Join(scope, ',')), ("response_type", "code")]
                    + StatePair(state);
      var url := authBaseUrl + "/oauth/authorize";
      assert UrlSafe(authBaseUrl) ==>
        QueryAfter(Get(url + "?" + FormUrlEncoded.Serialize(record)), url) == Some(record) by {
        if UrlSafe(authBaseUrl) {
          assert UrlSafe(url);
          QueryOfUrl(url, record);
        }
      }
      authBaseUrl + "/oauth/authorize" + "?" + FormUrlEncoded.Serialize(record)
    }

    /** `exchangeAuthorizationCode`: five entries appended in a fixed order, sent to
        `/oauth/access_token` whatever their values; the reply is parsed without the
        error check. */
    method ExchangeAuthorizationCode(clientId: string, clientSecret: string, redirectUri: string,
                                     code: string, reply: Json)
      returns (r: Call<ExchangeAuthenticationCodeResponse>)
      ensures r.request == Post(ApiUrl("/oauth/access_token"),
        [("client_id", clientId), ("client_secret", clientSecret),
         ("grant_type", "authorization_code"), ("redirect_uri", redirectUri), ("code", code)])
      ensures r.outcome == ClassifyExchange(reply)
    {
      var formData := new FormData();
      formData.Append("client_id", clientId);
      formData.Append("client_secret", clientSecret);
      formData.Append("grant_type", "authorization_code");
      formData.Append("redirect_uri", redirectUri);
      formData.Append("code", code);
      r := Call(Post(ApiUrl("/oauth/access_token"), formData.entries), ClassifyExchange(reply));
    }
  }

  /** `...(state && {state})`: the `state` entry, present only for a non-empty state. */
  function StatePair(state: Option<string>): Pairs {
    if state.Some? && state.value != "" then [("state", state.value)] else []
  }

  // -------------------------------------------------- authenticated client

  /** `{...params, access_token: token}`. */
  function WithToken(params: Params, token: string): Params {
    Assign(params, "access_token", Str(token))
  }

  /** Merging the token over the params: under either filter, `access_token` is the
      token (when the filter keeps it), whatever the caller passed, and every other key
      is sent as the caller's params alone would send it. */
  lemma TokenMerged(params: Params, token: string, rule: Rule)
    ensures DistinctKeys(params) ==>
      DistinctKeys(WithToken(params, token))
      && Find(Select(WithToken(params, token), rule), "access_token") == Sent(rule, Str(token))
      && forall k | k != "access_token" ::
           Find(Select(WithToken(params, token), rule), k) == Sent(rule, Lookup(params, k))
  {
    if DistinctKeys(params) {
      var w := WithToken(params, token);
      AssignDistinct(params, "access_token", Str(token));
      SelectFind(w, rule, "access_token");
      forall k | k != "access_token"
        ensures Find(Select(w, rule), k) == Sent(rule, Lookup(params, k))
      {
        SelectFind(w, rule, k);
        AssignOthers(params, "access_token", Str(token), k);
      }
    }
  }

  /** The query of a list endpoint: the joined list under `key` when there is one, the
      remaining params in the caller's order, then the token. */
  function ListQuery(key: string, list: Option<seq<string>>, rest: Params, token: string): Pairs {
    (if list.Some? then [(key, Strings.Join(list.value, ','))] else [])
    + Select(rest, KeepDefined) + [("access_token", token)]
  }

  /** `{[key]: list?.join(','), ...rest}` merged with the token and filtered for a GET
      is `ListQuery`, when the rest declares neither `key` nor `access_token`. */
  lemma ListParamsQuery(key: string, list: Option<seq<string>>, rest: Params, token: string,
                        decl: map<string, ParamType>)
    requires key !in decl && "access_token" !in decl && key != "access_token"
    ensures DistinctKeys(rest) && Typed(rest, decl) ==>
      DistinctKeys(Spread([(key, Joined(list))], rest))
      && DistinctKeys(WithToken(Spread([(key, Joined(list))], rest), token))
      && Select(WithToken(Spread([(key, Joined(list))], rest), token), KeepDefined)
         == ListQuery(key, list, rest, token)
  {
    if DistinctKeys(rest) && Typed(rest, decl) {
      var head: Params := [(key, Joined(list))];
      var tail: Params := [("access_token", Str(token))];
      ListSpread(key, list, rest, decl);
      assert WithToken(head + rest, token) == (head + rest) + tail;
      DistinctAppend(head + rest, "access_token", Str(token));
      ListSelect(key, list, rest, token);
    }
  }

  /** With the rest typed, `{[key]: …, ...rest}` puts the key first and the rest after
      it, with no key repeated and no `access_token`. */
  lemma ListSpread(key: string, list: Option<seq<string>>, rest: Params, decl: map<string, ParamType>)
    requires key !in decl && "access_token" !in decl && key != "access_token"
    requires DistinctKeys(rest) && Typed(rest, decl)
    ensures Spread([(key, Joined(list))], rest) == [(key, Joined(list))] + rest
    ensures DistinctKeys([(key, Joined(list))] + rest)
    ensures "access_token" !in Keys([(key, Joined(list))] + rest)
  {
    var head: Params := [(key, Joined(list))];
    forall i | 0 <= i < |rest| ensures rest[i].0 !in Keys(head) && rest[i].0 != "access_token" {
      assert rest[i].0 in decl;
    }
    SpreadFresh(head, rest);
    DistinctConcat(head, rest);
    KeysAppend(head, rest);
  }

  /** Filtering the head, the rest and the token one after another gives `ListQuery`. */
  lemma ListSelect(key: string, list: Option<seq<string>>, rest: Params, token: string)
    ensures Select(([(key, Joined(list))] + rest) + [("access_token", Str(token))], KeepDefined)
         == ListQuery(key, list, rest, token)
  {
    var head: Params := [(key, Joined(list))];
    var tail: Params := [("access_token", Str(token))];
    SelectAppend(head + rest, tail, KeepDefined);
    SelectAppend(head, rest, KeepDefined);
    assert Select(head, KeepDefined) == if list.Some? then [(key, Strings.Join(list.value, ','))] else [] by {
      assert head[..0] == [];
    }
    assert Select(tail, KeepDefined) == [("access_token", token)] by {
      assert tail[..0] == [];
    }
  }

  /** The list endpoints' own keys are not among the parameters their rest declares. */
  lemma DeclsExclude()
    ensures "fields" !in PaginationDecl && "access_token" !in PaginationDecl
    ensures "fields" !in RepliesDecl && "access_token" !in RepliesDecl
    ensures "metric" !in TemporalRangeDecl && "access_token" !in TemporalRangeDecl
  {
    assert PaginationDecl.Keys == {"before", "after", "limit", "since", "until"};
    assert RepliesDecl.Keys == PaginationDecl.Keys + {"reverse"};
    assert TemporalRangeDecl.Keys == {"since", "until"};
  }

  /** A GET whose query is the filtered `{...params, access_token}` of a list endpoint's
      params carries `ListQuery`. */
  lemma ListGetQuery(r: Request, url: string, key: string, list: Option<seq<string>>, rest: Params,
                     token: string, decl: map<string, ParamType>)
    requires key !in decl && "access_token" !in decl && key != "access_token"
    requires DistinctKeys(Spread([(key, Joined(list))], rest)) ==>
      QueryAfter(r, url) == Some(Select(WithToken(Spread([(key, Joined(list))], rest), token), KeepDefined))
    ensures DistinctKeys(rest) && Typed(rest, decl) ==>
      QueryAfter(r, url) == Some(ListQuery(key, list, rest, token))
  {
    ListParamsQuery(key, list, rest, token, decl);
  }

  /** What a list query carries: the token under `access_token`, never an `id`, and the
      pagination keys exactly as the rest defines them, so that a rest satisfying the
      cursor/time-range `XOR` never sends both kinds. */
  lemma ListQueryKeys(key: string, list: Option<seq<string>>, rest: Params, token: string,
                      decl: map<string, ParamType>)
    requires DistinctKeys(rest) && Typed(rest, decl)
    requires "access_token" !in decl && "id" !in decl && key != "access_token" && key != "id"
    requires key !in PaginationDecl
    requires Xor(rest, TemporalPaginationKeys, CursorPaginationKeys)
    ensures var q := ListQuery(key, list, rest, token);
      Find(q, "access_token") == Some(token) && Find(q, "id").None?
      && !((Find(q, "before").Some? || Find(q, "after").Some?)
           && (Find(q, "since").Some? || Find(q, "until").Some?))
  {
    var head := if list.Some? then [(key, Strings.Join(list.value, ','))] else [];
    var sel := Select(rest, KeepDefined);
    var tail := [("access_token", token)];
    assert ListQuery(key, list, rest, token) == head + (sel + tail);
    forall k | k in {"access_token", "id", "before", "after", "since", "until"}
      ensures Find(head + (sel + tail), k) == Find(sel + tail, k)
      ensures Find(sel, k) == Sent(KeepDefined, Lookup(rest, k))
    {
      assert k in PaginationDecl || k == "access_token" || k == "id";
      FindConcat(head, sel + tail, k);
      SelectFind(rest, KeepDefined, k);
    }
    forall k | k in {"access_token", "id"} ensures Lookup(rest, k).Undefined? {
      forall i | 0 <= i < |rest| ensures rest[i].0 != k {
        assert rest[i].0 in decl;
      }
      assert k !in Keys(rest);
    }
    FindConcat(sel, tail, "access_token");
    FindConcat(sel, tail, "id");
    FindConcat(sel, tail, "before");
    FindConcat(sel, tail, "after");
    FindConcat(sel, tail, "since");
    FindConcat(sel, tail, "until");
    PaginationXor(rest);
  }

  /** `{...(mediaType === 'IMAGE' && {...}), ...}`: the members only one media type adds. */
  function ImageFields(c: MediaContent): Params {
    if c.ImagePost? then [("image_url", Str(c.imageUrl)), ("is_carousel_item", OptionalBool(c.isCarouselItem))]
    else []
  }

  function VideoFields(c: MediaContent): Params {
    if c.VideoPost? then [("video_url", Str(c.videoUrl)), ("is_carousel_item", OptionalBool(c.isCarouselItem))]
    else []
  }

  function CarouselFields(c: MediaContent): Params {
    if c.CarouselPost? then [("children", Str(Strings.Join(c.children, ',')))] else []
  }

  /** The members every media container sends, before the media type's own. */
  function ContainerBase(p: CreateMediaContainerParams): Params {
    [("media_type", Str(p.content.MediaType())),
     ("text", OptionalStr(p.content.Text())),
     ("reply_control", if p.replyControl.Some? then Str(p.replyControl.value.Name()) else Undefined),
     ("reply_to_id", OptionalStr(p.replyToId))]
  }

  /** The params object `createMediaContainer` hands to `_authenticatedPost`. */
  function ContainerParams(p: CreateMediaContainerParams): Params {
    var c := p.content;
    Spread(Spread(Spread(ContainerBase(p), ImageFields(c)), VideoFields(c)), CarouselFields(c))
  }

  /** The value the container params and the token give each key. */
  function ContainerValue(p: CreateMediaContainerParams, token: string, k: string): Value {
    var c := p.content;
    if k == "media_type" then Str(c.MediaType())
    else if k == "text" then OptionalStr(c.Text())
    else if k == "reply_control" then
      (if p.replyControl.Some? then Str(p.replyControl.value.Name()) else Undefined)
    else if k == "reply_to_id" then OptionalStr(p.replyToId)
    else if k == "image_url" then (if c.ImagePost? then Str(c.imageUrl) else Undefined)
    else if k == "video_url" then (if c.VideoPost? then Str(c.videoUrl) else Undefined)
    else if k == "is_carousel_item" then
      (if c.ImagePost? || c.VideoPost? then OptionalBool(c.isCarouselItem) else Undefined)
    else if k == "children" then
      (if c.CarouselPost? then Str(Strings.Join(c.children, ',')) else Undefined)
    else if k == "access_token" then Str(token)
    else Undefined
  }

  lemma BaseFind(p: CreateMediaContainerParams, k: string)
    ensures Find(ContainerBase(p), k) ==
      if k in {"media_type", "text", "reply_control", "reply_to_id"} then Some(ContainerValue(p, "", k)) else None
  {
    var b := ContainerBase(p);
    assert b == [b[0], b[1]] + [b[2], b[3]];
    FindConcat([b[0], b[1]], [b[2], b[3]], k);
    Find2(b[0].0, b[0].1, b[1].0, b[1].1, k);
    Find2(b[2].0, b[2].1, b[3].0, b[3].1, k);
  }

  lemma ExtraFind(c: MediaContent, k: string)
    ensures DistinctKeys(ImageFields(c)) && DistinctKeys(VideoFields(c)) && DistinctKeys(CarouselFields(c))
    ensures Find(ImageFields(c), k) ==
      if c.ImagePost? && k == "image_url" then Some(Str(c.imageUrl))
      else if c.ImagePost? && k == "is_carousel_item" then Some(OptionalBool(c.isCarouselItem)) else None
    ensures Find(VideoFields(c), k) ==
      if c.VideoPost? && k == "video_url" then Some(Str(c.videoUrl))
      else if c.VideoPost? && k == "is_carousel_item" then Some(OptionalBool(c.isCarouselItem)) else None
    ensures Find(CarouselFields(c), k) ==
      if c.CarouselPost? && k == "children" then Some(Str(Strings.Join(c.children, ','))) else None
  {
    match c
    case ImagePost(url, item, _) => Find2("image_url", Str(url), "is_carousel_item", OptionalBool(item), k);
    case VideoPost(url, item, _) => Find2("video_url", Str(url), "is_carousel_item", OptionalBool(item), k);
    case CarouselPost(children, _) => Find1("children", Str(Strings.Join(children, ',')), k);
    case TextPost(_) =>
  }

  /** Each key of the merged container params holds `ContainerValue`. */
  lemma ContainerLookup(p: CreateMediaContainerParams, token: string, k: string)
    ensures Lookup(WithToken(ContainerParams(p), token), k) == ContainerValue(p, token, k)
  {
    var c := p.content;
    var s1 := Spread(ContainerBase(p), ImageFields(c));
    var s2 := Spread(s1, VideoFields(c));
    if k != "access_token" {
      AssignOthers(ContainerParams(p), "access_token", Str(token), k);
      ExtraFind(c, k);
      SpreadFind(s2, CarouselFields(c), k);
      SpreadFind(s1, VideoFields(c), k);
      SpreadFind(ContainerBase(p), ImageFields(c), k);
      BaseFind(p, k);
    }
  }

  /** The keys a media container form may hold. */
  predicate ContainerKey(k: string) {
    k == "media_type" || k == "text" || k == "reply_control" || k == "reply_to_id"
    || k == "image_url" || k == "video_url" || k == "is_carousel_item" || k == "children"
    || k == "access_token"
  }

  /** What the `createMediaContainer` form carries: under every key, the container
      value when it is truthy, and nothing otherwise. */
  ghost predicate ContainerFormOk(form: Pairs, p: CreateMediaContainerParams, token: string) {
    forall k :: Find(form, k) == Sent(KeepTruthy, ContainerValue(p, token, k))
  }

  /** What that means key by key: the media type is always sent; `image_url` only for
      an image, `video_url` only for a video, `children` (comma-joined) only for a
      carousel; `is_carousel_item` only for an image or video and only when `true`;
      text, reply settings and token only when not empty; no other key. */
  lemma ContainerSentValues(p: CreateMediaContainerParams, token: string)
    ensures var c := p.content;
      Sent(KeepTruthy, ContainerValue(p, token, "media_type")) == Some(c.MediaType())
      && Sent(KeepTruthy, ContainerValue(p, token, "text")) == NonEmpty(c.Text())
      && Sent(KeepTruthy, ContainerValue(p, token, "reply_control"))
         == (if p.replyControl.Some? then Some(p.replyControl.value.Name()) else None)
      && Sent(KeepTruthy, ContainerValue(p, token, "reply_to_id")) == NonEmpty(p.replyToId)
      && Sent(KeepTruthy, ContainerValue(p, token, "access_token")) == NonEmpty(Some(token))
    ensures forall k | !ContainerKey(k) :: Sent(KeepTruthy, ContainerValue(p, token, k)).None?
  {
  }

  lemma ContainerMediaValues(p: CreateMediaContainerParams, token: string)
    ensures var c := p.content;
      Sent(KeepTruthy, ContainerValue(p, token, "image_url"))
         == (if c.ImagePost? && c.imageUrl != "" then Some(c.imageUrl) else None)
      && Sent(KeepTruthy, ContainerValue(p, token, "video_url"))
         == (if c.VideoPost? && c.videoUrl != "" then Some(c.videoUrl) else None)
      && Sent(KeepTruthy, ContainerValue(p, token, "is_carousel_item"))
         == (if (c.ImagePost? || c.VideoPost?) && c.isCarouselItem == Some(true) then Some("true") else None)
      && Sent(KeepTruthy, ContainerValue(p, token, "children"))
         == (if c.CarouselPost? && Strings.Join(c.children, ',') != "" then Some(Strings.Join(c.children, ',')) else None)
  {
    match p.content
    case TextPost(_) =>
    case ImagePost(_, _, _) =>
    case VideoPost(_, _, _) =>
    case CarouselPost(_, _) =>
  }

  /** `ThreadsAuthenticatedApiClient`: a public client for `baseUrl`, the token and the
      user id. */
  class AuthenticatedClient {
    const client: PublicClient
    const accessToken: string
    const userId: string

    constructor(accessToken: string, userId: string, baseUrl: string := DefaultBaseUrl)
      ensures this.accessToken == accessToken && this.userId == userId
      ensures client.baseUrl == baseUrl
    {
      this.client := new PublicClient(baseUrl);
      this.accessToken := accessToken;
      this.userId := userId;
    }

    /** `_authenticatedGet`. */
    function AuthenticatedGet(endpoint: string, params: Params, schema: Schema, reply: Json): (r: Call<Json>)
      ensures r.request.Get? && r.outcome == Classify(schema, reply)
      ensures UrlSafe(client.ApiUrl(endpoint)) && DistinctKeys(params) ==>
        QueryAfter(r.request, client.ApiUrl(endpoint))
        == Some(Select(WithToken(params, accessToken), KeepDefined))
      ensures UrlSafe(client.ApiUrl(endpoint)) && DistinctKeys(params) ==>
        var q := QueryAfter(r.request, client.ApiUrl(endpoint));
        q.Some? && Find(q.value, "access_token") == Some(accessToken)
        && forall k | k != "access_token" :: Find(q.value, k) == Sent(KeepDefined, Lookup(params, k))
    {
      TokenMerged(params, accessToken, KeepDefined);
      client.ApiGet(endpoint, WithToken(params, accessToken), schema, reply)
    }

    /** `_authenticatedPost`. */
    method AuthenticatedPost(endpoint: string, params: Params, schema: Schema, reply: Json)
      returns (r: Call<Json>)
      ensures r.request == Post(client.ApiUrl(endpoint), Select(WithToken(params, accessToken), KeepTruthy))
      ensures r.outcome == Classify(schema, reply)
      ensures DistinctKeys(params) ==>
        Find(r.request.form, "access_token") == Sent(KeepTruthy, Str(accessToken))
        && forall k | k != "access_token" :: Find(r.request.form, k) == Sent(KeepTruthy, Lookup(params, k))
    {
      r := client.ApiPost(endpoint, WithToken(params, accessToken), schema, reply);
      TokenMerged(params, accessToken, KeepTruthy);
    }

    /** `createMediaContainer`. */
    method CreateMediaContainer(p: CreateMediaContainerParams, reply: Json) returns (r: Call<Json>)
      ensures r.request.Post? && r.request.url == client.ApiUrl("/v1.0/me/threads")
      ensures ContainerFormOk(r.request.form, p, accessToken)
      ensures DistinctKeys(r.request.form)
      ensures IsSubsequence(Keys(r.request.form), ContainerKeyOrder)
      ensures r.outcome == Classify(CreateMediaContainerResponseSchema, reply)
    {
      r := AuthenticatedPost("/v1.0/me/threads", ContainerParams(p), CreateMediaContainerResponseSchema, reply);
      ContainerForm(p, accessToken);
      ContainerFormOrder(p, accessToken);
      ContainerDistinct(p, accessToken);
      SelectDistinct(WithToken(ContainerParams(p), accessToken), KeepTruthy);
    }

    /** `publish`. */
    method Publish(p: PublishParams, reply: Json) returns (r: Call<Json>)
      ensures r.request.Post? && r.request.url == client.ApiUrl("/v1.0/me/threads_publish")
      ensures r.request.form ==
        (if p.creationId != "" then [("creation_id", p.creationId)] else [])
        + (if accessToken != "" then [("access_token", accessToken)] else [])
      ensures r.outcome == Classify(PublishResponseSchema, reply)
    {
      var params := [("creation_id", Str(p.creationId))];
      r := AuthenticatedPost("/v1.0/me/threads_publish", params, PublishResponseSchema, reply);
      SingleParamForm("creation_id", Str(p.creationId), accessToken, KeepTruthy);
    }

    /** `getUserThreads`. */
    function GetUserThreads(p: ListParams, reply: Json): (r: Call<Json>)
      ensures r.outcome == Classify(GetUserThreadsResponseSchema, reply)
      ensures UrlSafe(client.ApiUrl("/v1.0/" + p.id + "/threads")) && UserThreadsRestOk(p.rest) ==>
        QueryAfter(r.request, client.ApiUrl("/v1.0/" + p.id + "/threads"))
        == Some(ListQuery("fields", p.fields, p.rest, accessToken))
    {
      var endpoint := "/v1.0/" + p.id + "/threads";
      var params := Spread([("fields", Joined(p.fields))], p.rest);
      var r := AuthenticatedGet(endpoint, params, GetUserThreadsResponseSchema, reply);
      assert UrlSafe(client.ApiUrl(endpoint)) ==> (DistinctKeys(p.rest) && Typed(p.rest, PaginationDecl) ==>
        QueryAfter(r.request, client.ApiUrl(endpoint)) == Some(ListQuery("fields", p.fields, p.rest, accessToken))) by {
        if UrlSafe(client.ApiUrl(endpoint)) {
          DeclsExclude();
          ListGetQuery(r.request, client.ApiUrl(endpoint), "fields", p.fields, p.rest, accessToken, PaginationDecl);
        }
      }
      r
    }

    /** `getMediaObject`. */
    function GetMediaObject(p: ObjectParams, reply: Json): (r: Call<Json>)
      ensures r.outcome == Classify(GetMediaObjectResponseSchema, reply)
      ensures UrlSafe(client.ApiUrl("/v1.0/" + p.id)) ==>
        QueryAfter(r.request, client.ApiUrl("/v1.0/" + p.id))
        == Some(ListQuery("fields", p.fields, [], accessToken))
    {
      ObjectQuery(p.fields, accessToken);
      AuthenticatedGet("/v1.0/" + p.id, [("fields", Joined(p.fields))], GetMediaObjectResponseSchema, reply)
    }

    /** `getUserProfile`. */
    function GetUserProfile(p: ObjectParams, reply: Json): (r: Call<Json>)
      ensures r.outcome == Classify(GetUserProfileResponseSchema, reply)
      ensures UrlSafe(client.ApiUrl("/v1.0/" + p.id)) ==>
        QueryAfter(r.request, client.ApiUrl("/v1.0/" + p.id))
        == Some(ListQuery("fields", p.fields, [], accessToken))
    {
      ObjectQuery(p.fields, accessToken);
      AuthenticatedGet("/v1.0/" + p.id, [("fields", Joined(p.fields))], GetUserProfileResponseSchema, reply)
    }

    /** `getUserThreadsPublishingLimit`. */
    function GetUserThreadsPublishingLimit(p: ObjectParams, reply: Json): (r: Call<Json>)
      ensures r.outcome == Classify(GetUserThreadsPublishingLimitResponseSchema, reply)
      ensures UrlSafe(client.ApiUrl("/v1.0/" + p.id + "/threads_publishing_limit")) ==>
        QueryAfter(r.request, client.ApiUrl("/v1.0/" + p.id + "/threads_publishing_limit"))
        == Some(ListQuery("fields", p.fields, [], accessToken))
    {
      ObjectQuery(p.fields, accessToken);
      AuthenticatedGet("/v1.0/" + p.id + "/threads_publishing_limit", [("fields", Joined(p.fields))],
                       GetUserThreadsPublishingLimitResponseSchema, reply)
    }

    /** `getReplies`. */
    function GetReplies(p: ListParams, reply: Json): (r: Call<Json>)
      ensures r.outcome == Classify(GetRepliesResponseSchema, reply)
      ensures UrlSafe(client.ApiUrl("/v1.0/" + p.id + "/replies")) && RepliesRestOk(p.rest) ==>
        QueryAfter(r.request, client.ApiUrl("/v1.0/" + p.id + "/replies"))
        == Some(ListQuery("fields", p.fields, p.rest, accessToken))
    {
      var endpoint := "/v1.0/" + p.id + "/replies";
      var params := Spread([("fields", Joined(p.fields))], p.rest);
      var r := AuthenticatedGet(endpoint, params, GetRepliesResponseSchema, reply);
      assert UrlSafe(client.ApiUrl(endpoint)) ==> (DistinctKeys(p.rest) && Typed(p.rest, RepliesDecl) ==>
        QueryAfter(r.request, client.ApiUrl(endpoint)) == Some(ListQuery("fields", p.fields, p.rest, accessToken))) by {
        if UrlSafe(client.ApiUrl(endpoint)) {
          DeclsExclude();
          ListGetQuery(r.request, client.ApiUrl(endpoint), "fields", p.fields, p.rest, accessToken, RepliesDecl);
        }
      }
      r
    }

    /** `getConversation`. */
    function GetConversation(p: ListParams, reply: Json): (r: Call<Json>)
      ensures r.outcome == Classify(GetConversationResponseSchema, reply)
      ensures UrlSafe(client.ApiUrl("/v1.0/" + p.id + "/conversation")) && RepliesRestOk(p.rest) ==>
        QueryAfter(r.request, client.ApiUrl("/v1.0/" + p.id + "/conversation"))
        == Some(ListQuery("fields", p.fields, p.rest, accessToken))
    {
      var endpoint := "/v1.0/" + p.id + "/conversation";
      var params := Spread([("fields", Joined(p.fields))], p.rest);
      var r := AuthenticatedGet(endpoint, params, GetConversationResponseSchema, reply);
      assert UrlSafe(client.ApiUrl(endpoint)) ==> (DistinctKeys(p.rest) && Typed(p.rest, RepliesDecl) ==>
        QueryAfter(r.request, client.ApiUrl(endpoint)) == Some(ListQuery("fields", p.fields, p.rest, accessToken))) by {
        if UrlSafe(client.ApiUrl(endpoint)) {
          DeclsExclude();
          ListGetQuery(r.request, client.ApiUrl(endpoint), "fields", p.fields, p.rest, accessToken, RepliesDecl);
        }
      }
      r
    }

    /** `manageReply`, as written: `hide` goes through the truthy filter of `_apiPost`,
        so `hide: false` is not sent at all. */
    method ManageReply(p: ManageReplyParams, reply: Json) returns (r: Call<Json>)
      ensures r.request.Post? && r.request.url == client.ApiUrl("/v1.0/" + p.id + "/manage_reply")
      ensures Find(r.request.form, "hide") == if p.hide then Some("true") else None
      ensures r.request.form ==
        (if p.hide then [("hide", "true")] else [])
        + (if accessToken != "" then [("access_token", accessToken)] else [])
      ensures r.outcome == Classify(ManageReplyResponseSchema, reply)
    {
      var params := Spread([], [("hide", Bool(p.hide))]);
      assert params == [("hide", Bool(p.hide))] by {
        var q: Params := [("hide", Bool(p.hide))];
        assert q[..0] == [];
        assert Spread([], q) == Assign(Spread([], []), "hide", Bool(p.hide));
      }
      r := AuthenticatedPost("/v1.0/" + p.id + "/manage_reply", params, ManageReplyResponseSchema, reply);
      SingleParamForm("hide", Bool(p.hide), accessToken, KeepTruthy);
    }

    /** `manageReply` with `hide` sent as the string `'true'` or `'false'`, which the
        truthy filter keeps: the form always says which way to set the reply. */
    method ManageReplyCorrected(p: ManageReplyParams, reply: Json) returns (r: Call<Json>)
      ensures r.request.Post? && r.request.url == client.ApiUrl("/v1.0/" + p.id + "/manage_reply")
      ensures Find(r.request.form, "hide") == Some(if p.hide then "true" else "false")
      ensures r.request.form ==
        [("hide", if p.hide then "true" else "false")]
        + (if accessToken != "" then [("access_token", accessToken)] else [])
      ensures r.outcome == Classify(ManageReplyResponseSchema, reply)
    {
      var params := [("hide", Str(if p.hide then "true" else "false"))];
      r := AuthenticatedPost("/v1.0/" + p.id + "/manage_reply", params, ManageReplyResponseSchema, reply);
      SingleParamForm("hide", Str(if p.hide then "true" else "false"), accessToken, KeepTruthy);
    }

    /** `getMediaMetrics`. */
    function GetMediaMetrics(p: MetricsParams, reply: Json): (r: Call<Json>)
      ensures r.outcome == Classify(GetMediaMetricsResponseSchema, reply)
      ensures UrlSafe(client.ApiUrl("/v1.0/" + p.id + "/insights")) && MetricsRestOk(p.rest) ==>
        QueryAfter(r.request, client.ApiUrl("/v1.0/" + p.id + "/insights"))
        == Some(ListQuery("metric", p.metrics, p.rest, accessToken))
    {
      var endpoint := "/v1.0/" + p.id + "/insights";
      var params := Spread([("metric", Joined(p.metrics))], p.rest);
      var r := AuthenticatedGet(endpoint, params, GetMediaMetricsResponseSchema, reply);
      assert UrlSafe(client.ApiUrl(endpoint)) ==> (DistinctKeys(p.rest) && Typed(p.rest, TemporalRangeDecl) ==>
        QueryAfter(r.request, client.ApiUrl(endpoint)) == Some(ListQuery("metric", p.metrics, p.rest, accessToken))) by {
        if UrlSafe(client.ApiUrl(endpoint)) {
          DeclsExclude();
          ListGetQuery(r.request, client.ApiUrl(endpoint), "metric", p.metrics, p.rest, accessToken, TemporalRangeDecl);
        }
      }
      r
    }

    /** `getAccountMetrics`. */
    function GetAccountMetrics(p: MetricsParams, reply: Json): (r: Call<Json>)
      ensures r.outcome == Classify(GetAccountMetricsResponseSchema, reply)
      ensures UrlSafe(client.ApiUrl("/v1.0/" + p.id + "/threads_insights")) && MetricsRestOk(p.rest) ==>
        QueryAfter(r.request, client.ApiUrl("/v1.0/" + p.id + "/threads_insights"))
        == Some(ListQuery("metric", p.metrics, p.rest, accessToken))
    {
      var endpoint := "/v1.0/" + p.id + "/threads_insights";
      var params := Spread([("metric", Joined(p.metrics))], p.rest);
      var r := AuthenticatedGet(endpoint, params, GetAccountMetricsResponseSchema, reply);
      assert UrlSafe(client.ApiUrl(endpoint)) ==> (DistinctKeys(p.rest) && Typed(p.rest, TemporalRangeDecl) ==>
        QueryAfter(r.request, client.ApiUrl(endpoint)) == Some(ListQuery("metric", p.metrics, p.rest, accessToken))) by {
        if UrlSafe(client.ApiUrl(endpoint)) {
          DeclsExclude();
          ListGetQuery(r.request, client.ApiUrl(endpoint), "metric", p.metrics, p.rest, accessToken, TemporalRangeDecl);
        }
      }
      r
    }
  }

  /** The object endpoints' `{fields: fields?.join(',')}` with the token, filtered for
      a GET, is the list query with no rest. */
  lemma ObjectQuery(fields: Option<seq<string>>, token: string)
    ensures DistinctKeys(WithToken([("fields", Joined(fields))], token))
    ensures Select(WithToken([("fields", Joined(fields))], token), KeepDefined)
         == ListQuery("fields", fields, [], token)
  {
    ListParamsQuery("fields", fields, [], token, map[]);
  }

  /** A one-member params object merged with the token and filtered: the member, then
      the token, each only when the filter keeps it. */
  lemma SingleParamForm(key: string, v: Value, token: string, rule: Rule)
    requires key != "access_token"
    ensures Select(WithToken([(key, v)], token), rule) ==
      (if Keeps(rule, v) then [(key, Stringify(v))] else [])
      + (if Keeps(rule, Str(token)) then [("access_token", token)] else [])
  {
    var params: Params := [(key, v)];
    assert "access_token" !in Keys(params);
    var w := WithToken(params, token);
    assert w == params + [("access_token", Str(token))];
    assert w[..1] == params;
    assert params[..0] == [];
    assert Select(params, rule) == if Keeps(rule, v) then [(key, Stringify(v))] else [];
  }

  /** The media container form, key by key: `image_url` only for an image, `video_url`
      only for a video, `is_carousel_item` only for those two and only when `true`,
      `children` only for a carousel, and the shared members only when truthy. */
  lemma ContainerForm(p: CreateMediaContainerParams, token: string)
    ensures ContainerFormOk(Select(WithToken(ContainerParams(p), token), KeepTruthy), p, token)
  {
    var params := WithToken(ContainerParams(p), token);
    ContainerDistinct(p, token);
    forall k ensures Find(Select(params, KeepTruthy), k) == Sent(KeepTruthy, ContainerValue(p, token, k)) {
      SelectFind(params, KeepTruthy, k);
      ContainerLookup(p, token, k);
    }
  }

  lemma ContainerDistinct(p: CreateMediaContainerParams, token: string)
    ensures DistinctKeys(WithToken(ContainerParams(p), token))
  {
    var c := p.content;
    var base := ContainerBase(p);
    assert DistinctKeys(base);
    SpreadDistinct(base, ImageFields(c));
    SpreadDistinct(Spread(base, ImageFields(c)), VideoFields(c));
    SpreadDistinct(Spread(Spread(base, ImageFields(c)), VideoFields(c)), CarouselFields(c));
    AssignDistinct(ContainerParams(p), "access_token", Str(token));
  }

  /** Every key `createMediaContainer` can send, in the order its form lists them: the
      fields every post shares, those of an image, a video or a carousel, then the token. */
  const ContainerKeyOrder: seq<string> := ContainerBaseKeys + ContainerMediaOrder

  /** The keys of the fields every post shares, in order. */
  const ContainerBaseKeys: seq<string> := ["media_type", "text", "reply_control", "reply_to_id"]

  /** The keys that follow the shared ones, in order. */
  const ContainerMediaOrder: seq<string> :=
    ["image_url", "video_url", "is_carousel_item", "children", "access_token"]

  /** The keys a kind of post adds after the shared ones, in order. */
  function MediaKeys(c: MediaContent): (r: seq<string>)
    ensures |r| <= 2 && "access_token" !in r
  {
    match c
    case TextPost(_) => []
    case ImagePost(_, _, _) => ["image_url", "is_carousel_item"]
    case VideoPost(_, _, _) => ["video_url", "is_carousel_item"]
    case CarouselPost(_, _) => ["children"]
  }

  lemma ContainerBaseKeysOf(p: CreateMediaContainerParams)
    ensures Keys(ContainerBase(p)) == ContainerBaseKeys
  {
  }

  /** None of the keys a kind of post adds, nor the token, is a shared one. */
  lemma MediaKeysFresh()
    ensures "image_url" !in ContainerBaseKeys && "video_url" !in ContainerBaseKeys
    ensures "is_carousel_item" !in ContainerBaseKeys && "children" !in ContainerBaseKeys
    ensures "image_url" != "is_carousel_item" && "video_url" != "is_carousel_item"
  {
  }

  /** Spreading two new, different keys over `base` appends them. */
  lemma SpreadTwoFresh(base: Params, a: (string, Value), b: (string, Value))
    requires a.0 !in Keys(base) && b.0 !in Keys(base) && a.0 != b.0
    ensures Keys(Spread(base, [a, b])) == Keys(base) + [a.0, b.0]
  {
    var q := [a, b];
    assert q[0].0 == a.0 && q[1].0 == b.0;
    SpreadFresh(base, q);
    KeysAppend(base, q);
    assert Keys(q) == [a.0, b.0];
  }

  /** Spreading one new key over `base` appends it. */
  lemma SpreadOneFresh(base: Params, a: (string, Value))
    requires a.0 !in Keys(base)
    ensures Keys(Spread(base, [a])) == Keys(base) + [a.0]
  {
    var q := [a];
    assert q[0].0 == a.0;
    SpreadFresh(base, q);
    KeysAppend(base, q);
    assert Keys(q) == [a.0];
  }

  /** Only the fields of the post's own kind are spread over the shared ones. */
  lemma ContainerParamsSpread(p: CreateMediaContainerParams)
    ensures p.content.ImagePost? ==> ContainerParams(p) == Spread(ContainerBase(p), ImageFields(p.content))
    ensures p.content.VideoPost? ==> ContainerParams(p) == Spread(ContainerBase(p), VideoFields(p.content))
    ensures p.content.CarouselPost? ==> ContainerParams(p) == Spread(ContainerBase(p), CarouselFields(p.content))
    ensures p.content.TextPost? ==> ContainerParams(p) == ContainerBase(p)
  {
    var c := p.content;
    var s1 := Spread(ContainerBase(p), ImageFields(c));
    assert VideoFields(c) == [] ==> Spread(s1, VideoFields(c)) == s1;
    var s2 := Spread(s1, VideoFields(c));
    assert CarouselFields(c) == [] ==> Spread(s2, CarouselFields(c)) == s2;
    assert ImageFields(c) == [] ==> s1 == ContainerBase(p);
  }

  /** The merged parameters before the token: the shared keys, then the post's own. */
  lemma ContainerParamsKeys(p: CreateMediaContainerParams)
    ensures Keys(ContainerParams(p)) == ContainerBaseKeys + MediaKeys(p.content)
  {
    var c := p.content;
    var base := ContainerBase(p);
    ContainerParamsSpread(p);
    ContainerBaseKeysOf(p);
    MediaKeysFresh();
    match c
    case TextPost(_) =>
    case ImagePost(_, _, _) => SpreadTwoFresh(base, ImageFields(c)[0], ImageFields(c)[1]);
    case VideoPost(_, _, _) => SpreadTwoFresh(base, VideoFields(c)[0], VideoFields(c)[1]);
    case CarouselPost(_, _) => SpreadOneFresh(base, CarouselFields(c)[0]);
  }

  /** The merged parameters of `createMediaContainer` carry the shared keys, then those of
      the kind of post, then `access_token`, each once and in that order. */
  lemma ContainerKeys(p: CreateMediaContainerParams, token: string)
    ensures Keys(WithToken(ContainerParams(p), token)) ==
      ContainerBaseKeys + (MediaKeys(p.content) + ["access_token"])
  {
    var params := ContainerParams(p);
    var media := MediaKeys(p.content);
    ContainerParamsKeys(p);
    TokenFresh(media);
    KeysAppend(params, [("access_token", Str(token))]);
    assert ContainerBaseKeys + media + ["access_token"] == ContainerBaseKeys + (media + ["access_token"]);
  }

  /** `access_token` is neither a shared key nor one a kind of post adds. */
  lemma TokenFresh(media: seq<string>)
    requires |media| <= 2 && "access_token" !in media
    ensures "access_token" !in ContainerBaseKeys + media
  {
  }

  /** Whatever the kind of post, its keys come in the order of `ContainerKeyOrder`. */
  lemma ContainerKeysInOrder(p: CreateMediaContainerParams, token: string)
    ensures IsSubsequence(Keys(WithToken(ContainerParams(p), token)), ContainerKeyOrder)
  {
    ContainerKeys(p, token);
    MediaKeysInOrder(p.content);
    SubsequencePrefix(ContainerBaseKeys, MediaKeys(p.content) + ["access_token"], ContainerMediaOrder);
  }

  /** A kind of post's own keys, then the token, follow the order of `ContainerMediaOrder`. */
  lemma MediaKeysInOrder(c: MediaContent)
    ensures IsSubsequence(MediaKeys(c) + ["access_token"], ContainerMediaOrder)
  {
    // The order, built from its end.
    var o0: seq<string> := ["access_token"];
    var o1 := ["children"] + o0;
    var o2 := ["is_carousel_item"] + o1;
    var o3 := ["video_url"] + o2;
    var o4 := ["image_url"] + o3;
    assert o4 == ContainerMediaOrder;
    assert IsSubsequence(o0, o0);
    match c
    case TextPost(_) =>
      SubsequenceSkip("children", o0, o0);
      SubsequenceSkip("is_carousel_item", o0, o1);
      SubsequenceSkip("video_url", o0, o2);
      SubsequenceSkip("image_url", o0, o3);
      assert MediaKeys(c) + ["access_token"] == o0;
    case ImagePost(_, _, _) =>
      SubsequenceSkip("children", o0, o0);
      SubsequenceCons("is_carousel_item", o0, o1);
      SubsequenceSkip("video_url", ["is_carousel_item"] + o0, o2);
      SubsequenceCons("image_url", ["is_carousel_item"] + o0, o3);
      assert MediaKeys(c) + ["access_token"] == ["image_url"] + (["is_carousel_item"] + o0);
    case VideoPost(_, _, _) =>
      SubsequenceSkip("children", o0, o0);
      SubsequenceCons("is_carousel_item", o0, o1);
      SubsequenceCons("video_url", ["is_carousel_item"] + o0, o2);
      SubsequenceSkip("image_url", ["video_url"] + (["is_carousel_item"] + o0), o3);
      assert MediaKeys(c) + ["access_token"] == ["video_url"] + (["is_carousel_item"] + o0);
    case CarouselPost(_, _) =>
      SubsequenceCons("children", o0, o0);
      SubsequenceSkip("is_carousel_item", ["children"] + o0, o1);
      SubsequenceSkip("video_url", ["children"] + o0, o2);
      SubsequenceSkip("image_url", ["children"] + o0, o3);
      assert MediaKeys(c) + ["access_token"] == ["children"] + o0;
  }

  /** The form `createMediaContainer` sends lists its keys in the order of
      `ContainerKeyOrder`: dropping the empty fields keeps the others in place. */
  lemma ContainerFormOrder(p: CreateMediaContainerParams, token: string)
    ensures IsSubsequence(Keys(Select(WithToken(ContainerParams(p), token), KeepTruthy)), ContainerKeyOrder)
  {
    var params := WithToken(ContainerParams(p), token);
    SelectOrder(params, KeepTruthy);
    ContainerKeysInOrder(p, token);
    SubsequenceTrans(Keys(Select(params, KeepTruthy)), Keys(params), ContainerKeyOrder);
  }

  /** `manageReply({id, hide: false})` sends no `hide`, so the reply it means to unhide
      is left as it is; the corrected call sends `hide=false`. */
  lemma UnhideDropped(token: string)
    ensures Find(Select(WithToken([("hide", Bool(false))], token), KeepTruthy), "hide").None?
    ensures Find(Select(WithToken([("hide", Str("false"))], token), KeepTruthy), "hide") == Some("false")
  {
    SingleParamForm("hide", Bool(false), token, KeepTruthy);
    SingleParamForm("hide", Str("false"), token, KeepTruthy);
  }
}

=== FILE: form_urlencoded.dfy ===
/** The application/x-www-form-urlencoded format of the WHATWG URL Standard, which
    `URLSearchParams` uses to turn the client's query pairs into text: the serializer
    of section 5.2 and the parser of section 5.1, both over UTF-8 (section 3 of
    RFC 3629 for the bit layout), and the proof that the parser recovers every list
    of pairs the serializer wrote. */
module FormUrlEncoded {
  import Strings

  type Byte = b: int | 0 <= b < 256

  /** U+FFFD, what a decoder yields for bytes that are not well-formed UTF-8. */
  const Replacement: char := '�'

  // ---------------------------------------------------------------- UTF-8

  /** The UTF-8 bytes of one scalar value. */
  function EncodeScalar(c: char): (r: seq<Byte>)
    ensures 1 <= |r| <= 4
  {
    var n := c as int;
    if n < 0x80 then [n]
    else if n < 0x800 then [0xC0 + n / 64, 0x80 + n % 64]
    else if n < 0x10000 then [0xE0 + n / 4096, 0x80 + (n / 64) % 64, 0x80 + n % 64]
    else [0xF0 + n / 262144, 0x80 + (n / 4096) % 64, 0x80 + (n / 64) % 64, 0x80 + n % 64]
  }

  function Utf8Encode(s: string): seq<Byte>
  {
    if s == [] then [] else EncodeScalar(s[0]) + Utf8Encode(s[1..])
  }

  predicate IsContinuation(b: Byte) {
    0x80 <= b < 0xC0
  }

  /** The first scalar value of a byte sequence and how many bytes it takes; a byte that
      does not start a well-formed sequence (overlong, surrogate or out of range) reads
      as U+FFFD and is skipped on its own. */
  function DecodeFirst(bs: seq<Byte>): (r: (char, nat))
    requires bs != []
    ensures 1 <= r.1 <= |bs|
  {
    var b0 := bs[0] as int;
    if b0 < 0x80 then (b0 as char, 1)
    else if 0xC2 <= b0 < 0xE0 && |bs| >= 2 && IsContinuation(bs[1]) then
      var b1 := bs[1] as int;
      (((b0 - 0xC0) * 64 + (b1 - 0x80)) as char, 2)
    else if 0xE0 <= b0 < 0xF0 && |bs| >= 3 && IsContinuation(bs[1]) && IsContinuation(bs[2]) then
      var b1, b2 := bs[1] as int, bs[2] as int;
      var n := (b0 - 0xE0) * 4096 + (b1 - 0x80) * 64 + (b2 - 0x80);
      if 0x800 <= n && !(0xD800 <= n < 0xE000) then (n as char, 3) else (Replacement, 1)
    else if 0xF0 <= b0 < 0xF5 && |bs| >= 4 && IsContinuation(bs[1]) && IsContinuation(bs[2])
            && IsContinuation(bs[3]) then
      var b1, b2, b3 := bs[1] as int, bs[2] as int, bs[3] as int;
      var n := (b0 - 0xF0) * 262144 + (b1 - 0x80) * 4096 + (b2 - 0x80) * 64 + (b3 - 0x80);
      if 0x10000 <= n <= 0x10FFFF then (n as char, 4) else (Replacement, 1)
    else (Replacement, 1)
  }

  /** UTF-8 decode without BOM handling: a leading U+FEFF is kept as a character. */
  function Utf8Decode(bs: seq<Byte>): string
    decreases |bs|
  {
    if bs == [] then ""
    else
      var (c, len) := DecodeFirst(bs);
      [c] + Utf8Decode(bs[len..])
  }

  lemma Split64(n: nat)
    ensures n == (n / 64) * 64 + n % 64
    ensures n / 4096 == (n / 64) / 64
    ensures n / 262144 == (n / 4096) / 64
  {
  }

  /** Decoding reads back the scalar value that was encoded first. */
  lemma DecodeEncodedScalar(c: char, rest: seq<Byte>)
    ensures DecodeFirst(EncodeScalar(c) + rest) == (c, |EncodeScalar(c)|)
  {
    var n := c as int;
    var bs := EncodeScalar(c) + rest;
    Split64(n);
    Split64(n / 64);
    Split64(n / 4096);
    if n < 0x80 {
    } else if n < 0x800 {
      assert bs[0] == 0xC0 + n / 64 && bs[1] == 0x80 + n % 64;
    } else if n < 0x10000 {
      assert bs[0] == 0xE0 + n / 4096;
      assert (bs[0] as int - 0xE0) * 4096 + (bs[1] as int - 0x80) * 64 + (bs[2] as int - 0x80) == n;
    } else {
      assert bs[0] == 0xF0 + n / 262144;
      assert (bs[0] as int - 0xF0) * 262144 + (bs[1] as int - 0x80) * 4096
          + (bs[2] as int - 0x80) * 64 + (bs[3] as int - 0x80) == n;
    }
  }

  /** UTF-8 decoding undoes UTF-8 encoding. */
  lemma {:induction false} Utf8RoundTrip(s: string)
    ensures Utf8Decode(Utf8Encode(s)) == s
  {
    if s != [] {
      var head := EncodeScalar(s[0]);
      var tail := Utf8Encode(s[1..]);
      DecodeEncodedScalar(s[0], tail);
      assert (head + tail)[|head|..] == tail;
      Utf8RoundTrip(s[1..]);
    }
  }

  lemma {:induction false} Utf8EncodeAppend(a: string, b: string)
    ensures Utf8Encode(a + b) == Utf8Encode(a) + Utf8Encode(b)
  {
    if a != [] {
      assert (a + b)[0] == a[0];
      assert (a + b)[1..] == a[1..] + b;
      Utf8EncodeAppend(a[1..], b);
    } else {
      assert a + b == b;
    }
  }

  // ------------------------------------------------------ percent-encoding

  /** ASCII alphanumerics and `*`, `-`, `.`, `_`: the code points outside the
      application/x-www-form-urlencoded percent-encode set. */
  predicate IsUnescaped(b: Byte) {
    || 0x30 <= b <= 0x39
    || 0x41 <= b <= 0x5A
    || 0x61 <= b <= 0x7A
    || b == 0x2A || b == 0x2D || b == 0x2E || b == 0x5F
  }

  /** An upper-case hexadecimal digit. */
  function HexDigit(d: int): (c: char)
    requires 0 <= d < 16
    ensures c as int < 0x80 && IsHexByte(c as int) && HexValue(c as int) == d
  {
    if d < 10 then (48 + d) as char else (55 + d) as char
  }

  /** One byte after encoding, with space-as-plus: a space becomes `+`, an unescaped
      byte stays, every other byte becomes `%` and two upper-case hex digits. */
  function EncodeByte(b: Byte): string
  {
    if b == 0x20 then "+"
    else if IsUnescaped(b) then [b as char]
    else ['%', HexDigit(b / 16), HexDigit(b % 16)]
  }

  function EncodeBytes(bs: seq<Byte>): string
  {
    if bs == [] then "" else EncodeByte(bs[0]) + EncodeBytes(bs[1..])
  }

  /** Percent-encode after encoding (UTF-8, the application/x-www-form-urlencoded
      percent-encode set, space as plus). */
  function Encode(s: string): string
  {
    EncodeBytes(Utf8Encode(s))
  }

  /** The serializer of section 5.2: `name=value` for each pair, joined by `&`. */
  function Serialize(pairs: seq<(string, string)>): string
  {
    Strings.Join(EncodedPairs(pairs), '&')
  }

  function EncodedPairs(pairs: seq<(string, string)>): (r: seq<string>)
    ensures |r| == |pairs|
    ensures forall i | 0 <= i < |pairs| :: r[i] == Encode(pairs[i].0) + "=" + Encode(pairs[i].1)
  {
    if pairs == [] then []
    else [Encode(pairs[0].0) + "=" + Encode(pairs[0].1)] + EncodedPairs(pairs[1..])
  }

  // ---------------------------------------------------------------- parser

  predicate IsHexByte(b: Byte) {
    0x30 <= b <= 0x39 || 0x41 <= b <= 0x46 || 0x61 <= b <= 0x66
  }

  function HexValue(b: Byte): (d: int)
    requires IsHexByte(b)
    ensures 0 <= d < 16
  {
    if b <= 0x39 then b - 0x30 else if b <= 0x46 then b - 0x41 + 10 else b - 0x61 + 10
  }

  /** Percent-decode: `%` and two hex digits become that byte, every other byte stays. */
  function PercentDecode(bs: seq<Byte>): seq<Byte>
  {
    if bs == [] then []
    else if bs[0] == 0x25 && |bs| >= 3 && IsHexByte(bs[1]) && IsHexByte(bs[2]) then
      [HexValue(bs[1]) * 16 + HexValue(bs[2])] + PercentDecode(bs[3..])
    else [bs[0]] + PercentDecode(bs[1..])
  }

  /** Every `+` byte (0x2B) replaced by a space (0x20). */
  function PlusToSpace(bs: seq<Byte>): (r: seq<Byte>)
    ensures |r| == |bs|
    ensures forall i | 0 <= i < |bs| :: r[i] == if bs[i] == 0x2B then 0x20 else bs[i]
  {
    seq(|bs|, i requires 0 <= i < |bs| => if bs[i] == 0x2B then 0x20 else bs[i])
  }

  /** A name or value of the parser: plus to space, percent-decode, UTF-8 decode. */
  function DecodeComponent(s: string): string
  {
    Utf8Decode(PercentDecode(PlusToSpace(Utf8Encode(s))))
  }

  /** The text before the first `c` and the text after it (all of `s` and nothing when
      `s` holds no `c`). */
  function SplitAtFirst(s: string, c: char): (string, string)
  {
    if s == [] then ("", "")
    else if s[0] == c then ("", s[1..])
    else
      var (before, after) := SplitAtFirst(s[1..], c);
      ([s[0]] + before, after)
  }

  /** The parser of section 5.1. The standard splits the UTF-8 bytes of the input on
      0x26 and 0x3D; splitting the characters on `&` and `=` gives the same pieces,
      because no multi-byte UTF-8 sequence holds an ASCII byte. */
  function Parse(input: string): seq<(string, string)>
  {
    ParseSegments(Strings.Split(input, '&'))
  }

  /** Empty sequences are skipped; the others are split at their first `=`. */
  function ParseSegments(segments: seq<string>): seq<(string, string)>
  {
    if segments == [] then []
    else if segments[0] == "" then ParseSegments(segments[1..])
    else
      var (name, value) := SplitAtFirst(segments[0], '=');
      [(DecodeComponent(name), DecodeComponent(value))] + ParseSegments(segments[1..])
  }

  // ------------------------------------------------------------ round trip

  /** The characters the serializer writes for a name or a value. */
  predicate IsEncodedChar(c: char) {
    c == '+' || c == '%' || (c as int < 0x80 && IsUnescaped(c as int))
  }

  lemma {:induction false} EncodeBytesChars(bs: seq<Byte>)
    ensures forall i | 0 <= i < |EncodeBytes(bs)| :: IsEncodedChar(EncodeBytes(bs)[i])
  {
    if bs != [] {
      EncodeBytesChars(bs[1..]);
      var head := EncodeByte(bs[0]);
      var tail := EncodeBytes(bs[1..]);
      forall i | 0 <= i < |head + tail| ensures IsEncodedChar((head + tail)[i]) {
        if i >= |head| {
          assert (head + tail)[i] == tail[i - |head|];
        }
      }
    }
  }

  lemma PlusToSpaceAppend(a: seq<Byte>, b: seq<Byte>)
    ensures PlusToSpace(a + b) == PlusToSpace(a) + PlusToSpace(b)
  {
  }

  /** Decoding the bytes written for one byte gives that byte back, whatever follows. */
  lemma EncodedByteDecodes(b: Byte, rest: seq<Byte>)
    ensures PercentDecode(PlusToSpace(Utf8Encode(EncodeByte(b))) + rest) == [b] + PercentDecode(rest)
  {
    var head := EncodeByte(b);
    var hb := PlusToSpace(Utf8Encode(head));
    if b == 0x20 {
      assert hb == [0x20];
    } else if IsUnescaped(b) {
      assert head == [b as char];
      assert Utf8Encode(head) == EncodeScalar(b as char) + Utf8Encode([]);
      assert hb == [b];
    } else {
      var x, y := HexDigit(b / 16), HexDigit(b % 16);
      assert head == ['%', x, y];
      assert Utf8Encode(head) == [0x25, x as int, y as int] by {
        assert head[1..] == [x, y] && head[1..][1..] == [y];
        assert Utf8Encode([y]) == [y as int] + Utf8Encode([]);
        assert Utf8Encode([x, y]) == [x as int] + Utf8Encode([y]);
      }
      assert (hb + rest)[3..] == rest;
    }
  }

  /** What plus-to-space and percent-decoding read back from the serializer's bytes. */
  lemma {:induction false} PercentRoundTrip(bs: seq<Byte>)
    ensures PercentDecode(PlusToSpace(Utf8Encode(EncodeBytes(bs)))) == bs
  {
    if bs != [] {
      var head := EncodeByte(bs[0]);
      var tail := EncodeBytes(bs[1..]);
      Utf8EncodeAppend(head, tail);
      PlusToSpaceAppend(Utf8Encode(head), Utf8Encode(tail));
      EncodedByteDecodes(bs[0], PlusToSpace(Utf8Encode(tail)));
      PercentRoundTrip(bs[1..]);
    }
  }

  /** Decoding a serialized name or value gives back the original string. */
  lemma ComponentRoundTrip(s: string)
    ensures DecodeComponent(Encode(s)) == s
  {
    PercentRoundTrip(Utf8Encode(s));
    Utf8RoundTrip(s);
  }

  lemma {:induction false} SplitAtFirstPiece(a: string, b: string, c: char)
    requires c !in a
    ensures SplitAtFirst(a + [c] + b, c) == (a, b)
  {
    if a != [] {
      assert (a + [c] + b)[0] == a[0];
      assert (a + [c] + b)[1..] == a[1..] + [c] + b;
      SplitAtFirstPiece(a[1..], b, c);
      assert [a[0]] + a[1..] == a;
    } else {
      assert (a + [c] + b)[1..] == b;
    }
  }

  /** A text without `c` is all before its first `c`. */
  lemma {:induction false} SplitAtFirstAbsent(s: string, c: char)
    requires c !in s
    ensures SplitAtFirst(s, c).0 == s
  {
    if s != [] {
      assert c !in s[1..] by {
        forall i | 0 <= i < |s[1..]| ensures s[1..][i] == s[i + 1] { }
      }
      SplitAtFirstAbsent(s[1..], c);
      assert [s[0]] + s[1..] == s;
    }
  }

  /** The serializer never writes `#`, so a serialized query cannot be cut short by a
      URL's fragment. */
  lemma SerializeNoFragment(pairs: seq<(string, string)>)
    ensures '#' !in Serialize(pairs)
  {
    var parts := EncodedPairs(pairs);
    forall i | 0 <= i < |parts| ensures '#' !in parts[i] {
      EncodeBytesChars(Utf8Encode(pairs[i].0));
      EncodeBytesChars(Utf8Encode(pairs[i].1));
    }
    Strings.JoinFree(parts, '&', '#');
  }

  /** The parser recovers every list of pairs the serializer writes: names and values
      come back exactly, in order, with none lost or added. */
  lemma SerializeRoundTrip(pairs: seq<(string, string)>)
    ensures Parse(Serialize(pairs)) == pairs
  {
    var parts := EncodedPairs(pairs);
    if pairs != [] {
      forall i | 0 <= i < |parts| ensures '&' !in parts[i] {
        EncodeBytesChars(Utf8Encode(pairs[i].0));
        EncodeBytesChars(Utf8Encode(pairs[i].1));
      }
      Strings.SplitJoin(parts, '&');
    }
    SegmentsRoundTrip(pairs);
  }

  lemma {:induction false} SegmentsRoundTrip(pairs: seq<(string, string)>)
    ensures pairs != [] ==> ParseSegments(EncodedPairs(pairs)) == pairs
    ensures pairs == [] ==> ParseSegments([""]) == []
  {
    if pairs != [] {
      var (name, value) := pairs[0];
      EncodeBytesChars(Utf8Encode(name));
      SplitAtFirstPiece(Encode(name), Encode(value), '=');
      ComponentRoundTrip(name);
      ComponentRoundTrip(value);
      var parts := EncodedPairs(pairs);
      assert parts[1..] == EncodedPairs(pairs[1..]);
      SegmentsRoundTrip(pairs[1..]);
      if pairs[1..] == [] {
        assert ParseSegments(parts[1..]) == [];
      }
    } else {
      assert ParseSegments([""]) == ParseSegments([]);
    }
  }
}

=== FILE: json.dfy ===
/** The value `response.json()` yields, and the two JavaScript conversions the client
    applies to such values: truthiness (`if (json.error)`) and `String(value)`. */
module Json {
  import opened Wrappers
  import Strings

  /** A parsed JSON document. Numbers are integers here (see README, "Left out");
      an object keeps one value per key, as `JSON.parse` does (the last one wins). */
  datatype Json =
    | JNull
    | JBool(b: bool)
    | JNumber(n: int)
    | JString(s: string)
    | JArray(items: seq<Json>)
    | JObject(members: map<string, Json>)
  {
    /** JavaScript truthiness: `null`, `false`, `0` and `""` are falsy, every array and
        object is truthy. */
    predicate Truthy() {
      match this
      case JNull => false
      case JBool(b) => b
      case JNumber(n) => n != 0
      case JString(s) => s != ""
      case JArray(_) => true
      case JObject(_) => true
    }
  }

  /** Reading property `key` of a parsed value that is not `null`: an object's member,
      and `undefined` (None) for a missing member and for arrays, strings, numbers and
      booleans, which carry no data property of that name. */
  function Member(j: Json, key: string): (r: Option<Json>)
    ensures r.Some? <==> j.JObject? && key in j.members
    ensures r.Some? ==> r.value == j.members[key]
  {
    match j
    case JObject(m) => if key in m then Some(m[key]) else None
    case _ => None
  }

  /** `String(value)` for a value that may be `undefined` (the conversion behind
      `z.coerce.string()`). */
  function CoerceToString(v: Option<Json>): (r: string)
    ensures v == None ==> r == "undefined"
    ensures v.Some? && v.value.JString? ==> r == v.value.s
    ensures v.Some? && v.value.JNumber? ==> r == Strings.IntToDecimal(v.value.n)
    ensures v.Some? && v.value.JBool? ==> r == if v.value.b then "true" else "false"
    ensures v == Some(JNull) ==> r == "null"
    ensures v.Some? && v.value.JObject? ==> r == "[object Object]"
    ensures v == Some(JArray([])) ==> r == ""
  {
    match v
    case None => "undefined"
    case Some(j) => ToJsString(j)
  }

  /** `String(j)` for a JSON value. */
  function ToJsString(j: Json): string
    decreases j, 1, 0
  {
    match j
    case JNull => "null"
    case JBool(b) => if b then "true" else "false"
    case JNumber(n) => Strings.IntToDecimal(n)
    case JString(s) => s
    case JArray(items) => ElementsString(j, 0)
    case JObject(_) => "[object Object]"
  }

  /** `items.slice(i).join(',')` for the items of array `a`, as `String(array)` does it:
      a `null` element becomes the empty string, every other element its `String`. */
  function ElementsString(a: Json, i: nat): string
    requires a.JArray? && i <= |a.items|
    decreases a, 0, |a.items| - i
  {
    if i == |a.items| then ""
    else
      var e := a.items[i];
      var text := if e.JNull? then "" else ToJsString(e);
      if i + 1 == |a.items| then text else text + "," + ElementsString(a, i + 1)
  }
}

=== FILE: params.dfy ===
/** The untyped params record the client's request helpers take,
    `Record<string, string | number | boolean | undefined>`, and what they do with it:
    object spread with one key set (`{...params, access_token: token}`), the GET
    filter (`reduce` dropping `undefined`) and the POST filter (append when truthy). */
module Params {
  import opened Wrappers
  import Strings

  /** One value of a params record. */
  datatype Value = Undefined | Str(s: string) | Num(n: int) | Bool(b: bool)
  {
    /** JavaScript truthiness: `undefined`, `""`, `0` and `false` are falsy. */
    predicate Truthy() {
      match this
      case Undefined => false
      case Str(s) => s != ""
      case Num(n) => n != 0
      case Bool(b) => b
    }
  }

  /** A JavaScript object as an ordered list of its own keys (insertion order) and
      their values. */
  type Params = seq<(string, Value)>

  /** The string pairs that `URLSearchParams` and `FormData` carry, in order. */
  type Pairs = seq<(string, string)>

  function Keys<V>(p: seq<(string, V)>): (r: seq<string>)
    ensures |r| == |p| && forall i | 0 <= i < |p| :: r[i] == p[i].0
  {
    if p == [] then [] else [p[0].0] + Keys(p[1..])
  }

  /** An object never holds the same key twice. */
  predicate DistinctKeys<V>(p: seq<(string, V)>) {
    forall i, j | 0 <= i < j < |p| :: p[i].0 != p[j].0
  }

  /** The value stored under `key`, if the key is present. */
  function Find<V>(p: seq<(string, V)>, key: string): (r: Option<V>)
    ensures r.None? <==> key !in Keys(p)
  {
    if p == [] then None
    else if p[0].0 == key then Some(p[0].1)
    else
      assert Keys(p) == [p[0].0] + Keys(p[1..]);
      Find(p[1..], key)
  }

  /** `params[key]`: a missing key reads as `undefined`. */
  function Lookup(p: Params, key: string): Value {
    Find(p, key).GetOr(Undefined)
  }

  lemma {:induction false} FindAppend<V>(p: seq<(string, V)>, key: string, v: V, k: string)
    ensures Find(p + [(key, v)], k) == if Find(p, k).Some? then Find(p, k) else if k == key then Some(v) else None
  {
    if p != [] {
      assert (p + [(key, v)])[1..] == p[1..] + [(key, v)];
      FindAppend(p[1..], key, v, k);
    }
  }

  lemma Find1<V>(k1: string, v1: V, k: string)
    ensures Find([(k1, v1)], k) == if k == k1 then Some(v1) else None
  {
    assert [(k1, v1)][1..] == [];
  }

  lemma Find2<V>(k1: string, v1: V, k2: string, v2: V, k: string)
    ensures Find([(k1, v1), (k2, v2)], k) ==
      if k == k1 then Some(v1) else if k == k2 then Some(v2) else None
  {
    assert [(k1, v1), (k2, v2)][1..] == [(k2, v2)];
    Find1(k2, v2, k);
  }

  /** Looking a key up in two lists put together finds it in the first one if it is
      there. */
  lemma {:induction false} FindConcat<V>(a: seq<(string, V)>, b: seq<(string, V)>, k: string)
    ensures Find(a + b, k) == if Find(a, k).Some? then Find(a, k) else Find(b, k)
  {
    if a != [] {
      assert (a + b)[1..] == a[1..] + b;
      FindConcat(a[1..], b, k);
    } else {
      assert a + b == b;
    }
  }

  /** `{...p, [key]: v}`: a key already present keeps its place and takes the new
      value; a new key goes last. */
  function Assign<V>(p: seq<(string, V)>, key: string, v: V): (r: seq<(string, V)>)
    ensures Find(r, key) == Some(v)
    ensures key in Keys(p) ==> Keys(r) == Keys(p)
    ensures key !in Keys(p) ==> r == p + [(key, v)]
  {
    if p == [] then [(key, v)]
    else if p[0].0 == key then
      AssignHead(p, key, v);
      [(key, v)] + p[1..]
    else
      var tail := Assign(p[1..], key, v);
      AssignCons(p, key, v, tail);
      [p[0]] + tail
  }

  /** Setting the first key replaces its entry in place. */
  lemma AssignHead<V>(p: seq<(string, V)>, key: string, v: V)
    requires p != [] && p[0].0 == key
    ensures Find([(key, v)] + p[1..], key) == Some(v)
    ensures Keys([(key, v)] + p[1..]) == Keys(p)
  {
    KeysCons((key, v), p[1..]);
    KeysCons(p[0], p[1..]);
    assert p == [p[0]] + p[1..];
  }

  /** Setting a key other than the first one sets it in the rest of the object. */
  lemma AssignCons<V>(p: seq<(string, V)>, key: string, v: V, tail: seq<(string, V)>)
    requires p != [] && p[0].0 != key
    requires Find(tail, key) == Some(v)
    requires key in Keys(p[1..]) ==> Keys(tail) == Keys(p[1..])
    requires key !in Keys(p[1..]) ==> tail == p[1..] + [(key, v)]
    ensures Find([p[0]] + tail, key) == Some(v)
    ensures key in Keys(p) ==> Keys([p[0]] + tail) == Keys(p)
    ensures key !in Keys(p) ==> [p[0]] + tail == p + [(key, v)]
  {
    FindCons(p[0], tail, key);
    KeysSplit(p);
    if key in Keys(p) {
      KeysCons(p[0], tail);
    } else {
      ConsAppend(p, (key, v));
    }
  }

  lemma FindCons<V>(x: (string, V), rest: seq<(string, V)>, key: string)
    requires x.0 != key
    ensures Find([x] + rest, key) == Find(rest, key)
  {
    assert ([x] + rest)[1..] == rest;
  }

  lemma KeysSplit<V>(p: seq<(string, V)>)
    requires p != []
    ensures Keys(p) == [p[0].0] + Keys(p[1..])
  {
  }

  lemma ConsAppend<V>(p: seq<(string, V)>, x: (string, V))
    requires p != []
    ensures [p[0]] + (p[1..] + [x]) == p + [x]
  {
    assert p == [p[0]] + p[1..];
  }

  lemma KeysCons<V>(x: (string, V), rest: seq<(string, V)>)
    ensures Keys([x] + rest) == [x.0] + Keys(rest)
  {
    assert ([x] + rest)[1..] == rest;
  }

  /** Setting one key leaves every other key's value as it was, and an object with
      distinct keys keeps them distinct. */
  lemma {:induction false} AssignOthers<V>(p: seq<(string, V)>, key: string, v: V, k: string)
    requires k != key
    ensures Find(Assign(p, key, v), k) == Find(p, k)
  {
    if p != [] && p[0].0 != key {
      AssignOthers(p[1..], key, v, k);
    }
  }

  lemma AssignDistinct<V>(p: seq<(string, V)>, key: string, v: V)
    requires DistinctKeys(p)
    ensures DistinctKeys(Assign(p, key, v))
  {
    var r := Assign(p, key, v);
    if key !in Keys(p) {
      forall i, j | 0 <= i < j < |r| ensures r[i].0 != r[j].0 {
        assert Keys(r)[i] == r[i].0 && Keys(r)[j] == r[j].0;
      }
    } else {
      forall i, j | 0 <= i < j < |r| ensures r[i].0 != r[j].0 {
        assert Keys(r)[i] == r[i].0 && Keys(r)[j] == r[j].0;
        assert Keys(p)[i] == p[i].0 && Keys(p)[j] == p[j].0;
      }
    }
  }

  /** `value + ''`, and the conversion `FormData.append` applies to a non-Blob value. */
  function Stringify(v: Value): string
    requires !v.Undefined?
  {
    match v
    case Str(s) => s
    case Num(n) => Strings.IntToDecimal(n)
    case Bool(b) => if b then "true" else "false"
  }

  /** Which entries a request helper sends: GET keeps every defined value, POST only
      the truthy ones. */
  datatype Rule = KeepDefined | KeepTruthy

  predicate Keeps(rule: Rule, v: Value) {
    match rule
    case KeepDefined => !v.Undefined?
    case KeepTruthy => v.Truthy()
  }

  /** What a helper sends for a value under `rule`: its string when kept, else nothing. */
  function Sent(rule: Rule, v: Value): Option<string> {
    if Keeps(rule, v) then Some(Stringify(v)) else None
  }

  /** The kept entries of `p` in their original order, each value stringified. */
  function Select(p: Params, rule: Rule): Pairs
  {
    if p == [] then []
    else
      var last := p[|p| - 1];
      var init := Select(p[..|p| - 1], rule);
      if Keeps(rule, last.1) then init + [(last.0, Stringify(last.1))] else init
  }

  /** The `reduce` in `_apiGet`: from `{}`, for each key in order, `{...acc}` when the
      value is `undefined`, otherwise `{...acc, [key]: value + ''}`. */
  function GetReduce(p: Params): Pairs
  {
    if p == [] then []
    else
      var acc := GetReduce(p[..|p| - 1]);
      var last := p[|p| - 1];
      if last.1 == Undefined then acc else Assign(acc, last.0, Stringify(last.1))
  }

  /** `a` is `b` with some entries left out, the rest in the same order. */
  predicate IsSubsequence(a: seq<string>, b: seq<string>)
  {
    if a == [] then true
    else if b == [] then false
    else if a[0] == b[0] then IsSubsequence(a[1..], b[1..])
    else IsSubsequence(a, b[1..])
  }

  /** A subsequence of `x` without `x`'s first entry is a subsequence of `x`. */
  lemma {:induction false} SubsequenceWiden(a: seq<string>, x: seq<string>)
    requires x != [] && IsSubsequence(a, x[1..])
    ensures IsSubsequence(a, x)
    decreases |a| + |x|, 1
  {
    if a != [] && a[0] == x[0] {
      SubsequenceDropFirst(a, x[1..]);
    }
  }

  /** Leaving out the first entry of a subsequence keeps it a subsequence. */
  lemma {:induction false} SubsequenceDropFirst(a: seq<string>, x: seq<string>)
    requires a != [] && IsSubsequence(a, x)
    ensures IsSubsequence(a[1..], x)
    decreases |a| + |x|, 0
  {
    assert x != [];
    if a[0] == x[0] {
      SubsequenceWiden(a[1..], x);
    } else {
      SubsequenceDropFirst(a, x[1..]);
      SubsequenceWiden(a[1..], x);
    }
  }

  /** The same first key may be put in front of both sides. */
  lemma SubsequenceCons(x: string, a: seq<string>, b: seq<string>)
    requires IsSubsequence(a, b)
    ensures IsSubsequence([x] + a, [x] + b)
  {
    assert ([x] + a)[1..] == a && ([x] + b)[1..] == b;
  }

  /** A key may be put in front of the longer side only. */
  lemma SubsequenceSkip(y: string, a: seq<string>, b: seq<string>)
    requires IsSubsequence(a, b)
    ensures IsSubsequence(a, [y] + b)
  {
    assert ([y] + b)[1..] == b;
    SubsequenceWiden(a, [y] + b);
  }

  /** The same keys may be put in front of both sides. */
  lemma {:induction false} SubsequencePrefix(prefix: seq<string>, a: seq<string>, b: seq<string>)
    requires IsSubsequence(a, b)
    ensures IsSubsequence(prefix + a, prefix + b)
  {
    if prefix != [] {
      SubsequencePrefix(prefix[1..], a, b);
      SubsequenceCons(prefix[0], prefix[1..] + a, prefix[1..] + b);
      assert [prefix[0]] + (prefix[1..] + a) == prefix + a;
      assert [prefix[0]] + (prefix[1..] + b) == prefix + b;
    } else {
      assert prefix + a == a && prefix + b == b;
    }
  }

  /** A subsequence of a subsequence of `c` is a subsequence of `c`. */
  lemma {:induction false} SubsequenceTrans(a: seq<string>, b: seq<string>, c: seq<string>)
    requires IsSubsequence(a, b) && IsSubsequence(b, c)
    ensures IsSubsequence(a, c)
    decreases |c|
  {
    if a != [] {
      assert b != [] && c != [];
      if b[0] == c[0] {
        if a[0] == b[0] {
          SubsequenceTrans(a[1..], b[1..], c[1..]);
        } else {
          SubsequenceTrans(a, b[1..], c[1..]);
          SubsequenceWiden(a, c);
        }
      } else {
        SubsequenceTrans(a, b, c[1..]);
        SubsequenceWiden(a, c);
      }
    }
  }

  lemma {:induction false} SubsequenceExtend(a: seq<string>, b: seq<string>, x: string)
    requires IsSubsequence(a, b)
    ensures IsSubsequence(a, b + [x])
  {
    if a != [] && b != [] {
      assert (b + [x])[1..] == b[1..] + [x];
      if a[0] == b[0] {
        SubsequenceExtend(a[1..], b[1..], x);
      } else {
        SubsequenceExtend(a, b[1..], x);
      }
    }
  }

  lemma {:induction false} SubsequenceAppendBoth(a: seq<string>, b: seq<string>, x: string)
    requires IsSubsequence(a, b)
    ensures IsSubsequence(a + [x], b + [x])
  {
    if b == [] {
      assert a == [];
      assert ([x] + [])[1..] == [];
    } else {
      assert (b + [x])[1..] == b[1..] + [x];
      if a == [] {
        assert IsSubsequence([], b[1..]);
        SubsequenceAppendBoth([], b[1..], x);
      } else if a[0] == b[0] {
        assert (a + [x])[1..] == a[1..] + [x];
        SubsequenceAppendBoth(a[1..], b[1..], x);
      } else {
        SubsequenceAppendBoth(a, b[1..], x);
      }
    }
  }

  /** A selected entry is present exactly when the rule keeps the key's value, and then
      holds that value's string. */
  lemma {:induction false} SelectFind(p: Params, rule: Rule, k: string)
    requires DistinctKeys(p)
    ensures Find(Select(p, rule), k) == Sent(rule, Lookup(p, k))
  {
    if p != [] {
      var init := p[..|p| - 1];
      var last := p[|p| - 1];
      assert p == init + [last];
      SelectFind(init, rule, k);
      FindAppend(init, last.0, last.1, k);
      if Keeps(rule, last.1) {
        FindAppend(Select(init, rule), last.0, Stringify(last.1), k);
      }
      if k == last.0 {
        assert k !in Keys(init);
        SelectFind(init, rule, k);
      }
    }
  }

  /** The selected keys are the original keys with some left out, order unchanged. */
  lemma {:induction false} SelectOrder(p: Params, rule: Rule)
    ensures IsSubsequence(Keys(Select(p, rule)), Keys(p))
  {
    if p != [] {
      var init := p[..|p| - 1];
      var last := p[|p| - 1];
      assert p == init + [last];
      SelectOrder(init, rule);
      KeysAppend(init, [last]);
      assert Keys(p) == Keys(init) + [last.0];
      if Keeps(rule, last.1) {
        KeysAppend(Select(init, rule), [(last.0, Stringify(last.1))]);
        assert Keys(Select(p, rule)) == Keys(Select(init, rule)) + [last.0];
        SubsequenceAppendBoth(Keys(Select(init, rule)), Keys(init), last.0);
      } else {
        SubsequenceExtend(Keys(Select(init, rule)), Keys(init), last.0);
      }
    }
  }

  lemma DistinctAppend<V>(p: seq<(string, V)>, key: string, v: V)
    requires DistinctKeys(p) && key !in Keys(p)
    ensures DistinctKeys(p + [(key, v)])
  {
    var r := p + [(key, v)];
    forall i, j | 0 <= i < j < |r| ensures r[i].0 != r[j].0 {
      if j < |p| {
        assert r[i] == p[i] && r[j] == p[j];
      } else {
        assert Keys(p)[i] == r[i].0;
      }
    }
  }

  /** The filtered list never repeats a key. */
  lemma {:induction false} SelectDistinct(p: Params, rule: Rule)
    requires DistinctKeys(p)
    ensures DistinctKeys(Select(p, rule))
  {
    if p != [] {
      var init := p[..|p| - 1];
      var last := p[|p| - 1];
      SelectDistinct(init, rule);
      if Keeps(rule, last.1) {
        SelectFind(init, rule, last.0);
        assert last.0 !in Keys(init);
        DistinctAppend(Select(init, rule), last.0, Stringify(last.1));
      }
    }
  }

  /** Filtering a record built from two parts filters each part. */
  lemma {:induction false} SelectAppend(a: Params, b: Params, rule: Rule)
    ensures Select(a + b, rule) == Select(a, rule) + Select(b, rule)
  {
    if b == [] {
      assert a + b == a;
    } else {
      var binit := b[..|b| - 1];
      assert (a + b)[..|a + b| - 1] == a + binit;
      assert (a + b)[|a + b| - 1] == b[|b| - 1];
      SelectAppend(a, binit, rule);
    }
  }

  /** The `reduce` in `_apiGet` is the GET filter: every key whose value is defined,
      in order, with its value stringified. */
  lemma {:induction false} GetReduceIsSelect(p: Params)
    requires DistinctKeys(p)
    ensures GetReduce(p) == Select(p, KeepDefined)
  {
    if p != [] {
      var init := p[..|p| - 1];
      var last := p[|p| - 1];
      GetReduceIsSelect(init);
      if last.1 != Undefined {
        assert last.0 !in Keys(init);
        SelectFind(init, KeepDefined, last.0);
      }
    }
  }

  /** `{...p, ...q}`: `q`'s entries assigned over `p`, in `q`'s order. */
  function Spread(p: Params, q: Params): Params
  {
    if q == [] then p
    else
      var last := q[|q| - 1];
      Assign(Spread(p, q[..|q| - 1]), last.0, last.1)
  }

  lemma DistinctInit<V>(q: seq<(string, V)>)
    requires DistinctKeys(q) && q != []
    ensures DistinctKeys(q[..|q| - 1]) && q[|q| - 1].0 !in Keys(q[..|q| - 1])
  {
    var init := q[..|q| - 1];
    forall i | 0 <= i < |init| ensures Keys(init)[i] != q[|q| - 1].0 {
      assert init[i] == q[i];
    }
  }

  /** Two objects with distinct keys and no key in common make one with distinct keys. */
  lemma DistinctConcat<V>(p: seq<(string, V)>, q: seq<(string, V)>)
    requires DistinctKeys(p) && DistinctKeys(q)
    requires forall i | 0 <= i < |q| :: q[i].0 !in Keys(p)
    ensures DistinctKeys(p + q)
  {
    forall i, j | 0 <= i < j < |p + q| ensures (p + q)[i].0 != (p + q)[j].0 {
      if j >= |p| && i < |p| {
        assert Keys(p)[i] == p[i].0;
      }
    }
  }

  /** In a spread the right-hand object wins: a key it holds takes its value, any other
      key keeps the left-hand value. */
  lemma {:induction false} SpreadFind(p: Params, q: Params, k: string)
    requires DistinctKeys(q)
    ensures Find(Spread(p, q), k) == if Find(q, k).Some? then Find(q, k) else Find(p, k)
  {
    if q != [] {
      var init := q[..|q| - 1];
      var last := q[|q| - 1];
      assert q == init + [last];
      DistinctInit(q);
      SpreadFind(p, init, k);
      FindAppend(init, last.0, last.1, k);
      if k != last.0 {
        AssignOthers(Spread(p, init), last.0, last.1, k);
      }
    }
  }

  lemma {:induction false} KeysAppend<V>(a: seq<(string, V)>, b: seq<(string, V)>)
    ensures Keys(a + b) == Keys(a) + Keys(b)
  {
    if a != [] {
      assert (a + b)[1..] == a[1..] + b;
      KeysAppend(a[1..], b);
    }
  }

  /** A spread never repeats a key. */
  lemma {:induction false} SpreadDistinct(p: Params, q: Params)
    requires DistinctKeys(p)
    ensures DistinctKeys(Spread(p, q))
  {
    if q != [] {
      var init := q[..|q| - 1];
      var last := q[|q| - 1];
      SpreadDistinct(p, init);
      AssignDistinct(Spread(p, init), last.0, last.1);
    }
  }

  /** Splitting off the last entry of an object whose keys are distinct and all new. */
  lemma FreshStep(p: Params, init: Params, last: (string, Value))
    requires DistinctKeys(init + [last])
    requires forall i | 0 <= i < |init + [last]| :: (init + [last])[i].0 !in Keys(p)
    ensures DistinctKeys(init)
    ensures forall i | 0 <= i < |init| :: init[i].0 !in Keys(p)
    ensures last.0 !in Keys(p + init)
  {
    var q := init + [last];
    DistinctInit(q);
    assert q[..|q| - 1] == init;
    KeysAppend(p, init);
    forall i | 0 <= i < |init| ensures init[i].0 !in Keys(p) {
      assert init[i] == q[i];
    }
    assert q[|init|] == last;
  }

  /** One step of a spread of new keys: the last key, being new, is appended. */
  lemma SpreadFreshStep(p: Params, init: Params, last: (string, Value))
    requires Spread(p, init) == p + init && last.0 !in Keys(p + init)
    ensures Spread(p, init + [last]) == p + (init + [last])
  {
    var q := init + [last];
    assert q[..|q| - 1] == init && q[|q| - 1] == last;
    assert Spread(p, q) == Assign(p + init, last.0, last.1);
    assert (p + init) + [last] == p + q;
  }

  /** Spreading an object whose keys are all new appends its entries. */
  lemma {:induction false} SpreadFresh(p: Params, q: Params)
    requires DistinctKeys(q)
    requires forall i | 0 <= i < |q| :: q[i].0 !in Keys(p)
    ensures Spread(p, q) == p + q
  {
    if q != [] {
      var init := q[..|q| - 1];
      var last := q[|q| - 1];
      assert q == init + [last];
      FreshStep(p, init, last);
      SpreadFresh(p, init);
      SpreadFreshStep(p, init, last);
    }
  }
}

=== FILE: strings.dfy ===
/** The JavaScript string operations the client relies on: `Array.prototype.join`,
    splitting on a separator (its inverse), and the decimal text of an integer. */
module Strings {

  /** `parts.join(sep)`: the parts with one separator between neighbours. */
  function Join(parts: seq<string>, sep: char): string
  {
    if |parts| == 0 then ""
    else if |parts| == 1 then parts[0]
    else parts[0] + [sep] + Join(parts[1..], sep)
  }

  /** Strict split of `s` on `sep`: the pieces between separators, always at least one. */
  function Split(s: string, sep: char): (r: seq<string>)
    ensures |r| >= 1
  {
    if s == [] then [""]
    else
      var rest := Split(s[1..], sep);
      if s[0] == sep then [""] + rest
      else [[s[0]] + rest[0]] + rest[1..]
  }

  /** A piece that holds no separator splits to itself. */
  lemma {:induction false} SplitNoSep(p: string, sep: char)
    requires sep !in p
    ensures Split(p, sep) == [p]
  {
    if p != [] {
      assert sep !in p[1..] by {
        forall i | 0 <= i < |p[1..]| ensures p[1..][i] != sep { assert p[1..][i] == p[i + 1]; }
      }
      SplitNoSep(p[1..], sep);
      assert [p[0]] + p[1..] == p;
    }
  }

  /** A piece without separators followed by a separator is split off whole. */
  lemma {:induction false} SplitAfterPiece(p: string, t: string, sep: char)
    requires sep !in p
    ensures Split(p + [sep] + t, sep) == [p] + Split(t, sep)
  {
    if p == [] {
      assert p + [sep] + t == [sep] + t;
      assert ([sep] + t)[1..] == t;
    } else {
      assert sep !in p[1..] by {
        forall i | 0 <= i < |p[1..]| ensures p[1..][i] != sep { assert p[1..][i] == p[i + 1]; }
      }
      SplitAfterPiece(p[1..], t, sep);
      var s := p + [sep] + t;
      assert s[0] == p[0];
      assert s[1..] == p[1..] + [sep] + t;
      assert [p[0]] + p[1..] == p;
    }
  }

  /** Splitting undoes joining when no part holds the separator: a list such as
      `fields.join(',')` can be recovered from the text it produced. */
  lemma {:induction false} SplitJoin(parts: seq<string>, sep: char)
    requires |parts| >= 1
    requires forall i | 0 <= i < |parts| :: sep !in parts[i]
    ensures Split(Join(parts, sep), sep) == parts
  {
    if |parts| == 1 {
      SplitNoSep(parts[0], sep);
    } else {
      SplitJoin(parts[1..], sep);
      SplitAfterPiece(parts[0], Join(parts[1..], sep), sep);
      assert [parts[0]] + parts[1..] == parts;
    }
  }

  /** A character other than the separator occurs in a joined text only when some
      part holds it. */
  lemma {:induction false} JoinFree(parts: seq<string>, sep: char, c: char)
    requires c != sep
    requires forall i | 0 <= i < |parts| :: c !in parts[i]
    ensures c !in Join(parts, sep)
  {
    if |parts| > 1 {
      JoinFree(parts[1..], sep, c);
    }
  }

  predicate IsDigit(c: char) {
    '0' <= c <= '9'
  }

  predicate AllDigits(s: string) {
    forall i | 0 <= i < |s| :: IsDigit(s[i])
  }

  function DigitChar(d: int): (c: char)
    requires 0 <= d < 10
    ensures IsDigit(c)
  {
    (48 + d) as char
  }

  /** The number a run of decimal digits denotes (the reference reading). */
  function DigitsValue(s: string): nat
    requires AllDigits(s)
  {
    if s == [] then 0
    else DigitsValue(s[..|s| - 1]) * 10 + (s[|s| - 1] as int - 48)
  }

  /** The decimal text of a natural number, as `n + ''` renders an integer. */
  function NatToDecimal(n: nat): (r: string)
    ensures |r| >= 1 && AllDigits(r)
    ensures DigitsValue(r) == n
    ensures r[0] == '0' ==> n == 0
  {
    if n < 10 then [DigitChar(n)]
    else
      var head := NatToDecimal(n / 10);
      var r := head + [DigitChar(n % 10)];
      assert r[..|r| - 1] == head;
      r
  }

  /** `n + ''` for an integer `n` (a minus sign, then the digits of its magnitude). */
  function IntToDecimal(n: int): (r: string)
    ensures |r| >= 1
    ensures r[0] == '-' <==> n < 0
    ensures n >= 0 ==> AllDigits(r) && DigitsValue(r) == n
    ensures n < 0 ==> AllDigits(r[1..]) && DigitsValue(r[1..]) == -n
    ensures n >= 0 ==> (r[0] == '0' ==> n == 0)
    ensures n == 0 ==> r == "0"
    ensures n < 0 ==> |r| >= 2 && r[1] != '0'
  {
    if n < 0 then
      var digits := NatToDecimal(-n);
      assert ("-" + digits)[1..] == digits;
      "-" + digits
    else NatToDecimal(n)
  }
}

=== FILE: types.dfy ===
/** The declarations of `src/types.ts`: the response schemas, their enums, the typed
    records the client reads out of two of them, and the request parameter types,
    including the `XOR` that keeps cursor and time-range pagination apart. */
module Types {
  import opened Wrappers
  import opened Json
  import opened Zod
  import opened Params

  // ------------------------------------------------------------ pagination

  /** `Without<T, U>`: every key of `T` that `U` lacks is absent or `undefined`. */
  predicate Without(p: Params, t: set<string>, u: set<string>) {
    forall k | k in t && k !in u :: Lookup(p, k).Undefined?
  }

  /** `XOR<T, U>` over object types: `p` fits `U` without `T`'s own keys, or the
      other way round. */
  predicate Xor(p: Params, t: set<string>, u: set<string>) {
    Without(p, t, u) || Without(p, u, t)
  }

  /** The keys of `CursorPaginationParams` and of `TemporalPaginationParams`. */
  const CursorPaginationKeys: set<string> := {"before", "after", "limit"}
  const TemporalPaginationKeys: set<string> := {"since", "until", "limit"}

  predicate Defined(p: Params, k: string) {
    !Lookup(p, k).Undefined?
  }

  /** The `XOR` of the two pagination styles holds exactly when `before`/`after` and
      `since`/`until` are not both in use; `limit` goes with either. */
  lemma PaginationXor(p: Params)
    ensures Xor(p, TemporalPaginationKeys, CursorPaginationKeys) <==>
      !((Defined(p, "before") || Defined(p, "after")) && (Defined(p, "since") || Defined(p, "until")))
  {
    assert "since" in TemporalPaginationKeys && "since" !in CursorPaginationKeys;
    assert "until" in TemporalPaginationKeys && "until" !in CursorPaginationKeys;
    assert "before" in CursorPaginationKeys && "before" !in TemporalPaginationKeys;
    assert "after" in CursorPaginationKeys && "after" !in TemporalPaginationKeys;
  }

  /** The TypeScript type of one parameter value. */
  datatype ParamType = StringParam | NumberParam | BooleanParam

  predicate HasType(v: Value, t: ParamType) {
    match v
    case Undefined => true
    case Str(_) => t == StringParam
    case Num(_) => t == NumberParam
    case Bool(_) => t == BooleanParam
  }

  /** Every key of `p` is declared, with a value of its declared type (or `undefined`). */
  predicate Typed(p: Params, decl: map<string, ParamType>) {
    forall i | 0 <= i < |p| :: p[i].0 in decl && HasType(p[i].1, decl[p[i].0])
  }

  const PaginationDecl: map<string, ParamType> :=
    map["before" := StringParam, "after" := StringParam, "limit" := NumberParam,
        "since" := StringParam, "until" := StringParam]

  /** The rest of `GetUserThreadsParams` once `id` and `fields` are taken out. */
  predicate UserThreadsRestOk(p: Params) {
    DistinctKeys(p) && Typed(p, PaginationDecl)
    && Xor(p, TemporalPaginationKeys, CursorPaginationKeys)
  }

  /** The rest of `GetRepliesParams` and `GetConversationParams`: pagination and `reverse`. */
  predicate RepliesRestOk(p: Params) {
    DistinctKeys(p) && Typed(p, RepliesDecl)
    && Xor(p, TemporalPaginationKeys, CursorPaginationKeys)
  }

  /** The rest of `GetMediaMetricsParams` and `GetAccountMetricsParams`: `TemporalRangeParams`. */
  predicate MetricsRestOk(p: Params) {
    DistinctKeys(p) && Typed(p, TemporalRangeDecl)
  }

  const RepliesDecl: map<string, ParamType> := PaginationDecl["reverse" := BooleanParam]
  const TemporalRangeDecl: map<string, ParamType> := map["since" := StringParam, "until" := StringParam]

  // ----------------------------------------------------- request parameters

  /** `replyControl` of `CreateMediaContainerParams`. */
  datatype ReplyControl = Everyone | AccountsYouFollow | MentionedOnly {
    function Name(): string {
      match this
      case Everyone => "everyone"
      case AccountsYouFollow => "accounts_you_follow"
      case MentionedOnly => "mentioned_only"
    }
  }

  /** The four `mediaType` variants of `CreateMediaContainerParams` with their own
      members: a text post needs its text, the others may carry one. */
  datatype MediaContent =
    | TextPost(text: string)
    | ImagePost(imageUrl: string, isCarouselItem: Option<bool>, caption: Option<string>)
    | VideoPost(videoUrl: string, isCarouselItem: Option<bool>, caption: Option<string>)
    | CarouselPost(children: seq<string>, caption: Option<string>)
  {
    /** The `mediaType` tag. */
    function MediaType(): string {
      match this
      case TextPost(_) => "TEXT"
      case ImagePost(_, _, _) => "IMAGE"
      case VideoPost(_, _, _) => "VIDEO"
      case CarouselPost(_, _) => "CAROUSEL"
    }

    /** `params.text`, which is `undefined` when a non-text post has none. */
    function Text(): Option<string> {
      if this.TextPost? then Some(text) else caption
    }
  }

  datatype CreateMediaContainerParams = CreateMediaContainerParams(
    replyToId: Option<string>,
    replyControl: Option<ReplyControl>,
    content: MediaContent)

  datatype PublishParams = PublishParams(creationId: string)

  /** `GetUserThreadsParams`, `GetRepliesParams` and `GetConversationParams`: the id,
      the optional field list, and the remaining (pagination) members in the caller's
      order. */
  datatype ListParams = ListParams(id: string, fields: Option<seq<string>>, rest: Params)

  /** `GetMediaObjectParams`, `GetUserProfileParams` and
      `GetUserThreadsPublishingLimitParams`. */
  datatype ObjectParams = ObjectParams(id: string, fields: Option<seq<string>>)

  datatype ManageReplyParams = ManageReplyParams(id: string, hide: bool)

  /** `GetMediaMetricsParams` and `GetAccountMetricsParams`: the optional metric list
      and the time range. */
  datatype MetricsParams = MetricsParams(id: string, metrics: Option<seq<string>>, rest: Params)

  // --------------------------------------------------------------- schemas

  /** `makePaginatedResponseSchema(item)`, with its `paging` object and the `cursors`
      object inside that named separately. */
  function PaginatedResponseSchema(item: Schema): Schema {
    ZObject([("data", ZArray(item)), ("paging", PagingSchema)])
  }

  const PagingSchema: Schema := ZObject([("cursors", CursorsSchema)])

  const CursorsSchema: Schema :=
    ZObject([("before", ZOptional(ZString)), ("after", ZOptional(ZString))])

  const SuccessResponseSchema: Schema := ZObject([("success", ZBoolean)])

  /** The `error` object inside `ErrorResponseSchema`. */
  const ErrorDetailsSchema: Schema :=
    ZObject([
      ("code", ZOptional(ZNumber)),
      ("fbtrace_id", ZOptional(ZString)),
      ("message", ZOptional(ZString)),
      ("type", ZOptional(ZString))])

  const ErrorResponseSchema: Schema := ZObject([("error", ErrorDetailsSchema)])

  /** `ExchangeAuthenticationCodeResponseSchema`, which the client imports under the
      name `ExchangeAuthorizationCodeResponseSchema`. */
  const ExchangeAuthenticationCodeResponseSchema: Schema :=
    ZObject([("access_token", ZString), ("user_id", ZCoerceString)])

  const CreateMediaContainerResponseSchema: Schema := ZObject([("id", ZString)])
  const PublishResponseSchema: Schema := ZObject([("id", ZString)])

  const MediaTypes: seq<string> :=
    ["TEXT_POST", "IMAGE", "VIDEO", "CAROUSEL_ALBUM", "AUDIO", "REPOST_FACADE"]

  const ThreadsMediaObjectSchema: Schema :=
    ZObject([
      ("id", ZOptional(ZString)),
      ("media_product_type", ZOptional(ZString)),
      ("media_type", ZOptional(ZEnum(MediaTypes))),
      ("media_url", ZOptional(ZString)),
      ("permalink", ZOptional(ZString)),
      ("owner", ZOptional(ZString)),
      ("username", ZOptional(ZString)),
      ("text", ZOptional(ZString)),
      ("timestamp", ZOptional(ZString)),
      ("shortcode", ZOptional(ZString)),
      ("thumbnail_url", ZOptional(ZString)),
      ("children", ZOptional(ZArray(ZString))),
      ("is_quote_post", ZOptional(ZBoolean)),
      ("is_reply", ZOptional(ZBoolean)),
      ("status_code", ZOptional(ZString))])

  const ReplyMediaTypes: seq<string> := ["TEXT_POST", "IMAGE", "VIDEO", "CAROUSEL_ALBUM", "AUDIO"]

  const HideStatuses: seq<string> :=
    ["NOT_HUSHED", "UNHUSHED", "HIDDEN", "COVERED", "BLOCKED", "RESTRICTED"]

  const ThreadsReplySchema: Schema :=
    ZObject([
      ("id", ZOptional(ZString)),
      ("text", ZOptional(ZString)),
      ("username", ZOptional(ZString)),
      ("permalink", ZOptional(ZString)),
      ("timestamp", ZOptional(ZString)),
      ("media_product_type", ZOptional(ZString)),
      ("media_type", ZOptional(ZEnum(ReplyMediaTypes))),
      ("media_url", ZOptional(ZString)),
      ("shortcode", ZOptional(ZString)),
      ("thumbnail_url", ZOptional(ZString)),
      ("children", ZOptional(ZArray(ZString))),
      ("is_quote_post", ZOptional(ZBoolean)),
      ("has_replies", ZOptional(ZBoolean)),
      ("root_post", ZOptional(ZString)),
      ("replied_to", ZOptional(ZString)),
      ("is_reply", ZOptional(ZBoolean)),
      ("is_reply_owned_by_me", ZOptional(ZBoolean)),
      ("hide_status", ZOptional(ZEnum(HideStatuses)))])

  const GetUserThreadsResponseSchema: Schema := PaginatedResponseSchema(ThreadsMediaObjectSchema)
  const GetMediaObjectResponseSchema: Schema := ThreadsMediaObjectSchema
  const GetRepliesResponseSchema: Schema := PaginatedResponseSchema(ThreadsReplySchema)
  const GetConversationResponseSchema: Schema := PaginatedResponseSchema(ThreadsReplySchema)
  const ManageReplyResponseSchema: Schema := SuccessResponseSchema

  const ThreadsUserProfileSchema: Schema :=
    ZObject([
      ("id", ZOptional(ZString)),
      ("username", ZOptional(ZString)),
      ("threads_profile_picture_url", ZOptional(ZString)),
      ("threads_biography", ZOptional(ZString))])

  const GetUserProfileResponseSchema: Schema := ThreadsUserProfileSchema

  const ThreadsPublishingLimitSchema: Schema :=
    ZObject([("data", ZArray(ZObject([
      ("reply_quota_usage", ZOptional(ZNumber)),
      ("reply_config", ZOptional(ZObject([
        ("quota_total", ZOptional(ZNumber)),
        ("quota_duration", ZOptional(ZNumber))])))])))])

  const GetUserThreadsPublishingLimitResponseSchema: Schema := ThreadsPublishingLimitSchema

  const MediaMetrics: seq<string> := ["views", "likes", "replies", "reposts", "quotes"]

  const AccountMetrics: seq<string> :=
    ["views", "likes", "replies", "reposts", "quotes", "followers_count", "follower_demographics"]

  /** One entry of a metric value's `values` array. */
  const MediaMetricEntrySchema: Schema := ZObject([("value", ZNumber)])
  const AccountMetricEntrySchema: Schema := ZObject([("value", ZNumber), ("end_time", ZOptional(ZString))])

  const ThreadsMediaMetricValueSchema: Schema :=
    ZObject([
      ("name", ZEnum(MediaMetrics)),
      ("period", ZString),
      ("values", ZArray(MediaMetricEntrySchema)),
      ("title", ZString),
      ("description", ZString),
      ("id", ZString)])

  const GetMediaMetricsResponseSchema: Schema := ZObject([("data", ZArray(ThreadsMediaMetricValueSchema))])

  const ThreadsAccountMetricValueSchema: Schema :=
    ZObject([
      ("name", ZEnum(AccountMetrics)),
      ("period", ZString),
      ("values", ZArray(AccountMetricEntrySchema)),
      ("title", ZString),
      ("description", ZString),
      ("id", ZString)])

  const GetAccountMetricsResponseSchema: Schema := ZObject([("data", ZArray(ThreadsAccountMetricValueSchema))])

  // --------------------------------------------------------- typed records

  /** The `error` object of `ErrorResponse`. */
  datatype ErrorDetails = ErrorDetails(
    code: Option<int>,
    fbtraceId: Option<string>,
    message: Option<string>,
    errorType: Option<string>)

  datatype ErrorResponse = ErrorResponse(error: ErrorDetails)

  datatype ExchangeAuthenticationCodeResponse =
    ExchangeAuthenticationCodeResponse(accessToken: string, userId: string)

  /** The string an optional member holds, if it holds one. */
  function StringMember(j: Json, key: string): Option<string> {
    match Member(j, key)
    case Some(JString(s)) => Some(s)
    case _ => None
  }

  function NumberMember(j: Json, key: string): Option<int> {
    match Member(j, key)
    case Some(JNumber(n)) => Some(n)
    case _ => None
  }

  /** The `error` object's fields as a record. */
  function Details(e: Json): ErrorDetails {
    ErrorDetails(NumberMember(e, "code"), StringMember(e, "fbtrace_id"),
                 StringMember(e, "message"), StringMember(e, "type"))
  }

  /** `ErrorResponseSchema.safeParse(json)` read as an `ErrorResponse`: present exactly
      when the body fits the envelope, and then carrying the body's own fields. */
  function ParseErrorResponse(j: Json): (r: Option<ErrorResponse>)
    ensures r.Some? <==> Accepts(ErrorResponseSchema, Some(j))
    ensures r.Some? ==> Member(j, "error").Some? && r.value.error == Details(Member(j, "error").value)
  {
    match SafeParse(ErrorResponseSchema, Some(j))
    case Failure => None
    case Success(out) =>
      ErrorOutput(j);
      Some(ErrorResponse(Details(Member(out.value, "error").value)))
  }

  /** The parsed envelope holds an `error` object with the body's own fields. */
  lemma ErrorOutput(j: Json)
    requires Accepts(ErrorResponseSchema, Some(j))
    ensures var out := SafeParse(ErrorResponseSchema, Some(j)).data.value;
      Member(j, "error").Some? && Member(out, "error").Some?
      && Details(Member(out, "error").value) == Details(Member(j, "error").value)
  {
    ErrorSchemaFacts();
    ErrorMemberAccepted(j);
    var e := Member(j, "error");
    ObjectOutput(ErrorResponseSchema, Some(j), 0);
    assert SafeParse(ErrorDetailsSchema, e).Success?;
    DetailsOutput(e.value);
  }

  lemma ErrorSchemaFacts()
    ensures WellFormed(ErrorResponseSchema)
    ensures ErrorResponseSchema.ZObject? && ErrorResponseSchema.shape == [("error", ErrorDetailsSchema)]
  {
  }

  /** An accepted envelope holds an `error` member that fits the details schema. */
  lemma ErrorMemberAccepted(j: Json)
    requires Accepts(ErrorResponseSchema, Some(j))
    ensures Member(j, "error").Some? && Accepts(ErrorDetailsSchema, Member(j, "error"))
    ensures SafeParse(ErrorResponseSchema, Some(j)).Success?
  {
    assert Accepts(ErrorResponseSchema.shape[0].1, Member(j, ErrorResponseSchema.shape[0].0));
  }

  /** Parsing the `error` object keeps its four fields as they are. */
  lemma DetailsOutput(e: Json)
    requires Accepts(ErrorDetailsSchema, Some(e))
    ensures Details(SafeParse(ErrorDetailsSchema, Some(e)).data.value) == Details(e)
  {
    var d := ErrorDetailsSchema;
    DetailsSchemaFacts();
    ScalarMembersKept(d, Some(e));
    DetailsAgree(SafeParse(d, Some(e)).data.value, e, d.shape);
  }

  /** The `error` object's schema declares four distinct, scalar members. */
  lemma DetailsSchemaFacts()
    ensures WellFormed(ErrorDetailsSchema)
    ensures forall k | 0 <= k < 4 :: Scalar(ErrorDetailsSchema.shape[k].1)
  {
  }

  /** Two objects that agree on the four envelope fields give the same details. */
  lemma DetailsAgree(a: Json, b: Json, shape: seq<(string, Schema)>)
    requires |shape| == 4
    requires shape[0].0 == "code" && shape[1].0 == "fbtrace_id"
    requires shape[2].0 == "message" && shape[3].0 == "type"
    requires forall k | 0 <= k < 4 :: Member(a, shape[k].0) == Member(b, shape[k].0)
    ensures Details(a) == Details(b)
  {
    assert Member(a, shape[0].0) == Member(b, shape[0].0);
    assert Member(a, shape[1].0) == Member(b, shape[1].0);
    assert Member(a, shape[2].0) == Member(b, shape[2].0);
    assert Member(a, shape[3].0) == Member(b, shape[3].0);
  }

  /** `ExchangeAuthorizationCodeResponseSchema.parse(json)`: it fails unless the body is
      an object whose `access_token` is a string; `user_id` is whatever the body holds,
      turned into a string (`"undefined"` when it is missing). */
  function ParseExchangeResponse(j: Json): (r: Option<ExchangeAuthenticationCodeResponse>)
    ensures r.Some? <==> j.JObject? && StringMember(j, "access_token").Some?
    ensures r.Some? ==>
      r.value.accessToken == StringMember(j, "access_token").value
      && r.value.userId == CoerceToString(Member(j, "user_id"))
  {
    ExchangeAccepts(j);
    match SafeParse(ExchangeAuthenticationCodeResponseSchema, Some(j))
    case Failure => None
    case Success(out) =>
      ExchangeOutput(j);
      match (Member(out.value, "access_token"), Member(out.value, "user_id"))
      case (Some(JString(token)), Some(JString(user))) =>
        Some(ExchangeAuthenticationCodeResponse(token, user))
      case _ => None
  }

  /** The exchange reply fits its schema exactly when `access_token` is a string. */
  lemma ExchangeAccepts(j: Json)
    ensures Accepts(ExchangeAuthenticationCodeResponseSchema, Some(j)) <==>
      j.JObject? && StringMember(j, "access_token").Some?
  {
    var s := ExchangeAuthenticationCodeResponseSchema;
    TwoMembers(s, j);
    assert s.shape[0] == ("access_token", ZString);
    assert s.shape[1] == ("user_id", ZCoerceString);
  }

  /** The parsed exchange reply keeps `access_token` and holds `user_id` as a string. */
  lemma ExchangeOutput(j: Json)
    requires Accepts(ExchangeAuthenticationCodeResponseSchema, Some(j))
    ensures var out := SafeParse(ExchangeAuthenticationCodeResponseSchema, Some(j)).data.value;
      Member(out, "access_token") == Member(j, "access_token")
      && Member(out, "user_id") == Some(JString(CoerceToString(Member(j, "user_id"))))
  {
    var s := ExchangeAuthenticationCodeResponseSchema;
    assert s.shape[0] == ("access_token", ZString);
    assert s.shape[1] == ("user_id", ZCoerceString);
    assert WellFormed(s);
    ObjectOutput(s, Some(j), 0);
    ObjectOutput(s, Some(j), 1);
  }

  // ------------------------------------------------------ response shapes

  /** An optional string member: missing, or a string. */
  predicate OptionalString(v: Option<Json>) {
    v.None? || v.value.JString?
  }

  /** `paging.cursors` is an object whose `before` and `after` are optional strings. */
  predicate CursorsOk(paging: Option<Json>) {
    paging.Some? && Member(paging.value, "cursors").Some?
    && var cursors := Member(paging.value, "cursors").value;
       cursors.JObject? && OptionalString(Member(cursors, "before"))
       && OptionalString(Member(cursors, "after"))
  }

  /** A paginated response is an object with a `data` array whose every item fits the
      item schema, and a `paging` object holding `cursors`. */
  lemma PaginatedAccepts(item: Schema, j: Json)
    ensures Accepts(PaginatedResponseSchema(item), Some(j)) <==>
      j.JObject? && Member(j, "data").Some? && Member(j, "data").value.JArray?
      && (forall i | 0 <= i < |Member(j, "data").value.items| ::
            Accepts(item, Some(Member(j, "data").value.items[i])))
      && CursorsOk(Member(j, "paging"))
  {
    var s := PaginatedResponseSchema(item);
    TwoMembers(s, j);
    assert s.shape[0] == ("data", ZArray(item)) && s.shape[1] == ("paging", PagingSchema);
    PagingAccepts(Member(j, "paging"));
  }

  lemma PagingAccepts(paging: Option<Json>)
    ensures Accepts(PagingSchema, paging) <==> CursorsOk(paging)
  {
    if paging.Some? {
      var p := paging.value;
      OneMember(PagingSchema, p);
      assert PagingSchema.shape[0] == ("cursors", CursorsSchema);
      if Member(p, "cursors").Some? {
        TwoMembers(CursorsSchema, Member(p, "cursors").value);
        assert CursorsSchema.shape[0] == ("before", ZOptional(ZString));
        assert CursorsSchema.shape[1] == ("after", ZOptional(ZString));
      }
    }
  }

  /** The error envelope is an object whose `error` member is an object in which
      `code` is an optional number and `fbtrace_id`, `message` and `type` are optional
      strings. */
  lemma ErrorEnvelopeAccepts(j: Json)
    ensures Accepts(ErrorResponseSchema, Some(j)) <==>
      Member(j, "error").Some? && DetailsOk(Member(j, "error").value)
  {
    OneMember(ErrorResponseSchema, j);
    assert ErrorResponseSchema.shape[0] == ("error", ErrorDetailsSchema);
    if Member(j, "error").Some? {
      DetailsAccepts(Member(j, "error").value);
    }
  }

  /** The `error` object: an optional number `code` and optional strings `fbtrace_id`,
      `message` and `type`. */
  predicate DetailsOk(e: Json) {
    e.JObject?
    && (Member(e, "code").None? || Member(e, "code").value.JNumber?)
    && OptionalString(Member(e, "fbtrace_id")) && OptionalString(Member(e, "message"))
    && OptionalString(Member(e, "type"))
  }

  lemma DetailsAccepts(e: Json)
    ensures Accepts(ErrorDetailsSchema, Some(e)) <==> DetailsOk(e)
  {
    var d := ErrorDetailsSchema;
    FourMembers(d, e);
    assert d.shape[0] == ("code", ZOptional(ZNumber));
    assert d.shape[1] == ("fbtrace_id", ZOptional(ZString));
    assert d.shape[2] == ("message", ZOptional(ZString));
    assert d.shape[3] == ("type", ZOptional(ZString));
  }

  /** A reply's `media_type` takes the media object's values except `REPOST_FACADE`. */
  lemma ReplyMediaTypesExcludeRepostFacade()
    ensures "REPOST_FACADE" in MediaTypes && "REPOST_FACADE" !in ReplyMediaTypes
    ensures forall t :: t in ReplyMediaTypes <==> t in MediaTypes && t != "REPOST_FACADE"
  {
  }

  /** Whatever `media_type` an accepted reply carries is one of the five reply media
      types; a media object may also carry `REPOST_FACADE`. */
  lemma ReplyMediaType(j: Json)
    requires Accepts(ThreadsReplySchema, Some(j))
    ensures Member(j, "media_type").None?
         || (Member(j, "media_type").value.JString? && Member(j, "media_type").value.s in ReplyMediaTypes)
  {
    var shape := ThreadsReplySchema.shape;
    assert shape[6] == ("media_type", ZOptional(ZEnum(ReplyMediaTypes)));
    assert Accepts(shape[6].1, Member(j, shape[6].0));
  }

  lemma MediaObjectMediaType(j: Json)
    requires Accepts(ThreadsMediaObjectSchema, Some(j))
    ensures Member(j, "media_type").None?
         || (Member(j, "media_type").value.JString? && Member(j, "media_type").value.s in MediaTypes)
  {
    var shape := ThreadsMediaObjectSchema.shape;
    assert shape[2] == ("media_type", ZOptional(ZEnum(MediaTypes)));
    assert Accepts(shape[2].1, Member(j, shape[2].0));
  }

  /** So a reply whose `media_type` is `REPOST_FACADE` is rejected, while the media
      object's `media_type` member admits that value. */
  lemma RepostFacadeReply(j: Json)
    requires Member(j, "media_type") == Some(JString("REPOST_FACADE"))
    ensures !Accepts(ThreadsReplySchema, Some(j))
    ensures Accepts(ThreadsMediaObjectSchema.shape[2].1, Member(j, ThreadsMediaObjectSchema.shape[2].0))
  {
    ReplyMediaTypesExcludeRepostFacade();
    if Accepts(ThreadsReplySchema, Some(j)) {
      ReplyMediaType(j);
    }
    assert ThreadsMediaObjectSchema.shape[2] == ("media_type", ZOptional(ZEnum(MediaTypes)));
  }

  /** An accepted reply's `hide_status`, when present, is one of the six statuses. */
  lemma ReplyHideStatus(j: Json)
    requires Accepts(ThreadsReplySchema, Some(j))
    ensures Member(j, "hide_status").None?
         || (Member(j, "hide_status").value.JString?
             && Member(j, "hide_status").value.s in
                  {"NOT_HUSHED", "UNHUSHED", "HIDDEN", "COVERED", "BLOCKED", "RESTRICTED"})
  {
    var shape := ThreadsReplySchema.shape;
    assert shape[17] == ("hide_status", ZOptional(ZEnum(HideStatuses)));
    assert Accepts(shape[17].1, Member(j, shape[17].0));
  }

  /** Account metrics are the media metrics plus `followers_count` and
      `follower_demographics`. */
  lemma AccountMetricsExtendMediaMetrics()
    ensures forall m :: m in AccountMetrics <==>
      m in MediaMetrics || m == "followers_count" || m == "follower_demographics"
    ensures "followers_count" !in MediaMetrics && "follower_demographics" !in MediaMetrics
  {
  }

  /** A metric value has the six members `name`, `period`, `values`, `title`,
      `description` and `id`, whether it is a media or an account metric value. */
  lemma MetricValueMembers(j: Json)
    requires Accepts(ThreadsMediaMetricValueSchema, Some(j)) || Accepts(ThreadsAccountMetricValueSchema, Some(j))
    ensures j.JObject?
    ensures "name" in j.members && "period" in j.members && "values" in j.members
    ensures "title" in j.members && "description" in j.members && "id" in j.members
  {
    if Accepts(ThreadsMediaMetricValueSchema, Some(j)) {
      MetricShapeMembers(ZEnum(MediaMetrics), MediaMetricEntrySchema, j);
    } else {
      MetricShapeMembers(ZEnum(AccountMetrics), AccountMetricEntrySchema, j);
    }
  }

  /** The metric value shape, whatever its metric names and entries, requires its six
      members. */
  lemma MetricShapeMembers(names: Schema, entry: Schema, j: Json)
    requires names.ZEnum?
    requires Accepts(ZObject([("name", names), ("period", ZString), ("values", ZArray(entry)),
                              ("title", ZString), ("description", ZString), ("id", ZString)]), Some(j))
    ensures j.JObject?
    ensures "name" in j.members && "period" in j.members && "values" in j.members
    ensures "title" in j.members && "description" in j.members && "id" in j.members
  {
    var s := ZObject([("name", names), ("period", ZString), ("values", ZArray(entry)),
                      ("title", ZString), ("description", ZString), ("id", ZString)]);
    RequiredMembersPresent(s, j);
    assert s.shape[0].0 == "name" && !s.shape[0].1.ZOptional? && !s.shape[0].1.ZCoerceString?;
    assert s.shape[1].0 == "period" && s.shape[1].1 == ZString;
    assert s.shape[2].0 == "values" && s.shape[2].1.ZArray?;
    assert s.shape[3] == ("title", ZString) && s.shape[4] == ("description", ZString);
    assert s.shape[5] == ("id", ZString);
  }

  /** The entries of a metric value's `values` array. */
  function ValueEntries(j: Json): seq<Json> {
    match Member(j, "values")
    case Some(JArray(items)) => items
    case _ => []
  }

  /** A media metric entry is an account metric entry exactly when its `end_time`, if
      any, is a string. */
  lemma MediaEntryAsAccountEntry(e: Json)
    requires Accepts(MediaMetricEntrySchema, Some(e))
    ensures Accepts(AccountMetricEntrySchema, Some(e)) <==> OptionalString(Member(e, "end_time"))
  {
    var media := MediaMetricEntrySchema.shape;
    var account := AccountMetricEntrySchema.shape;
    assert account == [("value", ZNumber), ("end_time", ZOptional(ZString))];
    assert Accepts(media[0].1, Member(e, media[0].0));
    if OptionalString(Member(e, "end_time")) {
      forall k | 0 <= k < 2 ensures Accepts(account[k].1, Member(e, account[k].0)) {}
    }
    if Accepts(AccountMetricEntrySchema, Some(e)) {
      assert Accepts(account[1].1, Member(e, account[1].0));
    }
  }

  /** A media metric value is an account metric value exactly when none of its
      entries carries an `end_time` that is not a string: the media shape declares only
      `value`, so it lets any `end_time` through, and the account shape checks it. */
  lemma MediaMetricValueAsAccountMetricValue(j: Json)
    requires Accepts(ThreadsMediaMetricValueSchema, Some(j))
    ensures Accepts(ThreadsAccountMetricValueSchema, Some(j)) <==>
      forall i | 0 <= i < |ValueEntries(j)| :: OptionalString(Member(ValueEntries(j)[i], "end_time"))
  {
    var media := ThreadsMediaMetricValueSchema.shape;
    AccountMetricsExtendMediaMetrics();
    MetricValueTransfer(media, ThreadsAccountMetricValueSchema.shape, j);
    assert Accepts(media[2].1, Member(j, media[2].0));
    ValuesAsAccountValues(j);
  }

  /** The lemma above over the two shapes, given only how they differ. */
  lemma MetricValueTransfer(media: seq<(string, Schema)>, account: seq<(string, Schema)>, j: Json)
    requires |media| == 6 == |account|
    requires forall k | 0 <= k < 6 && k != 0 && k != 2 :: account[k] == media[k]
    requires media[0].0 == account[0].0
    requires media[0].1 == ZEnum(MediaMetrics) && account[0].1 == ZEnum(AccountMetrics)
    requires forall m | m in MediaMetrics :: m in AccountMetrics
    requires media[2] == ("values", ZArray(MediaMetricEntrySchema))
    requires account[2] == ("values", ZArray(AccountMetricEntrySchema))
    requires Accepts(ZObject(media), Some(j))
    ensures Accepts(ZObject(account), Some(j)) <==> Accepts(account[2].1, Member(j, "values"))
  {
    if Accepts(account[2].1, Member(j, "values")) {
      forall k | 0 <= k < 6 ensures Accepts(account[k].1, Member(j, account[k].0)) {
        if k != 2 {
          assert Accepts(media[k].1, Member(j, media[k].0));
        }
      }
    }
  }

  /** The `values` array half of the lemma above. */
  lemma ValuesAsAccountValues(j: Json)
    requires Accepts(ZArray(MediaMetricEntrySchema), Member(j, "values"))
    ensures Accepts(ZArray(AccountMetricEntrySchema), Member(j, "values")) <==>
      forall i | 0 <= i < |ValueEntries(j)| :: OptionalString(Member(ValueEntries(j)[i], "end_time"))
  {
    var entries := ValueEntries(j);
    assert Member(j, "values").value.items == entries;
    forall i | 0 <= i < |entries|
      ensures Accepts(AccountMetricEntrySchema, Some(entries[i])) <==> OptionalString(Member(entries[i], "end_time"))
    {
      MediaEntryAsAccountEntry(entries[i]);
    }
  }
}

=== FILE: wrappers.dfy ===
/** An optional value: `None` stands for JavaScript's `undefined`. */
module Wrappers {

  datatype Option<+T> = None | Some(value: T) {

    function GetOr(default: T): T {
      match this
      case Some(v) => v
      case None => default
    }
  }
}

=== FILE: zod.dfy ===
/** The fragment of the zod schema library that the response shapes are written in:
    `z.string()`, `z.number()`, `z.boolean()`, `z.enum([...])`, `z.coerce.string()`,
    `.optional()`, `z.array(...)` and `z.object({...})`.

    `Accepts` says which values a schema admits; `SafeParse` is zod's parse, which also
    builds the output value: it keeps only the declared members of an object, leaves
    out an optional member that is missing, and turns a coerced value into a string. */
module Zod {
  import opened Wrappers
  import opened Json

  datatype Schema =
    | ZString
    | ZNumber
    | ZBoolean
    | ZEnum(options: seq<string>)
    | ZCoerceString
    | ZOptional(inner: Schema)
    | ZArray(element: Schema)
    | ZObject(shape: seq<(string, Schema)>)

  /** The outcome of `schema.safeParse(value)`: the parsed data (None when the output
      is `undefined`) or a failure, which `parse` throws as a `ZodError`. */
  datatype SafeParseResult = Success(data: Option<Json>) | Failure

  /** Whether `s` admits `v`; `None` is `undefined`, the value of a missing member. */
  predicate Accepts(s: Schema, v: Option<Json>)
  {
    match s
    case ZString => v.Some? && v.value.JString?
    case ZNumber => v.Some? && v.value.JNumber?
    case ZBoolean => v.Some? && v.value.JBool?
    case ZEnum(options) => v.Some? && v.value.JString? && v.value.s in options
    case ZCoerceString => true
    case ZOptional(inner) => v.None? || Accepts(inner, v)
    case ZArray(e) =>
      v.Some? && v.value.JArray? &&
      forall i | 0 <= i < |v.value.items| :: Accepts(e, Some(v.value.items[i]))
    case ZObject(shape) =>
      v.Some? && v.value.JObject? &&
      forall i | 0 <= i < |shape| :: Accepts(shape[i].1, Member(v.value, shape[i].0))
  }

  /** The member names an object schema declares (`keyof` of its inferred type). */
  function ShapeKeys(shape: seq<(string, Schema)>): (r: set<string>)
    ensures forall i | 0 <= i < |shape| :: shape[i].0 in r
    ensures forall k | k in r :: exists i | 0 <= i < |shape| :: shape[i].0 == k
  {
    set i | 0 <= i < |shape| :: shape[i].0
  }

  /** `schema.safeParse(v)`: succeeds exactly when the schema admits the value, and a
      present value parses to a present value. */
  function SafeParse(s: Schema, v: Option<Json>): (r: SafeParseResult)
    ensures r.Success? <==> Accepts(s, v)
    ensures v.Some? && r.Success? ==> r.data.Some?
    decreases s, 1, 0
  {
    match s
    case ZCoerceString => Success(Some(JString(CoerceToString(v))))
    case ZOptional(inner) => if v.None? then Success(None) else SafeParse(inner, v)
    case ZArray(_) =>
      if v.Some? && v.value.JArray? then
        match ParseItems(s, v.value.items)
        case Some(out) => Success(Some(JArray(out)))
        case None => Failure
      else Failure
    case ZObject(_) =>
      if v.Some? && v.value.JObject? then
        match ParseMembers(s, v.value.members, 0)
        case Some(out) => Success(Some(JObject(out)))
        case None => Failure
      else Failure
    case _ => if Accepts(s, v) then Success(v) else Failure
  }

  /** The parsed items of an array checked by array schema `s`. */
  function ParseItems(s: Schema, items: seq<Json>): (r: Option<seq<Json>>)
    requires s.ZArray?
    ensures r.Some? <==> forall k | 0 <= k < |items| :: Accepts(s.element, Some(items[k]))
    ensures r.Some? ==> |r.value| == |items|
    decreases s, 0, |items|
  {
    if items == [] then Some([])
    else
      match SafeParse(s.element, Some(items[0]))
      case Success(Some(o)) =>
        (match ParseItems(s, items[1..])
         case Some(rest) => Some([o] + rest)
         case None => None)
      case _ => None
  }

  /** The output members for the declared members `i..` of object schema `s`, read from
      input members `m`; a member whose output is `undefined` is left out, and members
      that `s` does not declare never reach the output. */
  function ParseMembers(s: Schema, m: map<string, Json>, i: nat): (r: Option<map<string, Json>>)
    requires s.ZObject? && i <= |s.shape|
    ensures r.Some? <==>
      forall k | i <= k < |s.shape| :: Accepts(s.shape[k].1, Member(JObject(m), s.shape[k].0))
    ensures r.Some? ==> r.value.Keys <= ShapeKeys(s.shape[i..])
    decreases s, 0, |s.shape| - i
  {
    if i == |s.shape| then Some(map[])
    else
      var key := s.shape[i].0;
      match SafeParse(s.shape[i].1, Member(JObject(m), key))
      case Failure => None
      case Success(o) =>
        match ParseMembers(s, m, i + 1)
        case None => None
        case Some(rest) =>
          assert ShapeKeys(s.shape[i + 1..]) <= ShapeKeys(s.shape[i..]) by {
            forall k | k in ShapeKeys(s.shape[i + 1..]) ensures k in ShapeKeys(s.shape[i..]) {
              var j :| 0 <= j < |s.shape[i + 1..]| && s.shape[i + 1..][j].0 == k;
              assert s.shape[i..][j + 1] == s.shape[i + 1..][j];
            }
          }
          assert s.shape[i..][0].0 == key;
          Some(if o.Some? then rest[key := o.value] else rest)
  }

  /** A schema that checks a value without rebuilding it: a string, number, boolean or
      enum, possibly optional. */
  predicate Scalar(s: Schema) {
    match s
    case ZOptional(inner) => Scalar(inner)
    case ZCoerceString => false
    case ZArray(_) => false
    case ZObject(_) => false
    case _ => true
  }

  /** Parsing with a scalar schema hands back the input unchanged. */
  lemma ScalarParse(s: Schema, v: Option<Json>)
    requires Scalar(s) && Accepts(s, v)
    ensures SafeParse(s, v) == Success(v)
  {
    if s.ZOptional? && v.Some? {
      ScalarParse(s.inner, v);
    }
  }

  /** Parsing an object keeps every member whose schema is scalar as it was. */
  lemma ScalarMembersKept(s: Schema, v: Option<Json>)
    requires s.ZObject? && WellFormed(s)
    requires SafeParse(s, v).Success?
    ensures SafeParse(s, v).data.Some?
    ensures forall k | 0 <= k < |s.shape| && Scalar(s.shape[k].1) ::
      Member(SafeParse(s, v).data.value, s.shape[k].0) == Member(v.value, s.shape[k].0)
  {
    forall k | 0 <= k < |s.shape| && Scalar(s.shape[k].1)
      ensures Member(SafeParse(s, v).data.value, s.shape[k].0) == Member(v.value, s.shape[k].0)
    {
      ObjectOutput(s, v, k);
      ScalarParse(s.shape[k].1, Member(v.value, s.shape[k].0));
    }
  }

  /** An accepted object holds every member whose schema is neither optional nor
      coerced. */
  lemma RequiredMembersPresent(s: Schema, j: Json)
    requires s.ZObject? && Accepts(s, Some(j))
    ensures forall k | 0 <= k < |s.shape| && !s.shape[k].1.ZOptional? && !s.shape[k].1.ZCoerceString? ::
      s.shape[k].0 in j.members
  {
    forall k | 0 <= k < |s.shape| && !s.shape[k].1.ZOptional? && !s.shape[k].1.ZCoerceString?
      ensures s.shape[k].0 in j.members
    {
      assert Accepts(s.shape[k].1, Member(j, s.shape[k].0));
    }
  }

  /** An object schema with one or two members accepts exactly the objects whose
      members it accepts. */
  lemma OneMember(s: Schema, j: Json)
    requires s.ZObject? && |s.shape| == 1
    ensures Accepts(s, Some(j)) <==> j.JObject? && Accepts(s.shape[0].1, Member(j, s.shape[0].0))
  {
  }

  lemma TwoMembers(s: Schema, j: Json)
    requires s.ZObject? && |s.shape| == 2
    ensures Accepts(s, Some(j)) <==>
      j.JObject? && Accepts(s.shape[0].1, Member(j, s.shape[0].0))
      && Accepts(s.shape[1].1, Member(j, s.shape[1].0))
  {
    if j.JObject? && Accepts(s.shape[0].1, Member(j, s.shape[0].0))
       && Accepts(s.shape[1].1, Member(j, s.shape[1].0)) {
      forall k | 0 <= k < 2 ensures Accepts(s.shape[k].1, Member(j, s.shape[k].0)) {}
    }
  }

  lemma FourMembers(s: Schema, j: Json)
    requires s.ZObject? && |s.shape| == 4
    ensures Accepts(s, Some(j)) <==>
      j.JObject? && Accepts(s.shape[0].1, Member(j, s.shape[0].0))
      && Accepts(s.shape[1].1, Member(j, s.shape[1].0))
      && Accepts(s.shape[2].1, Member(j, s.shape[2].0))
      && Accepts(s.shape[3].1, Member(j, s.shape[3].0))
  {
    if j.JObject? && Accepts(s.shape[0].1, Member(j, s.shape[0].0))
       && Accepts(s.shape[1].1, Member(j, s.shape[1].0))
       && Accepts(s.shape[2].1, Member(j, s.shape[2].0))
       && Accepts(s.shape[3].1, Member(j, s.shape[3].0)) {
      forall k | 0 <= k < 4 ensures Accepts(s.shape[k].1, Member(j, s.shape[k].0)) {}
    }
  }

  /** Every object schema inside `s` declares each member name once, as the keys of a
      JavaScript object literal are. */
  predicate WellFormed(s: Schema)
  {
    match s
    case ZOptional(inner) => WellFormed(inner)
    case ZArray(e) => WellFormed(e)
    case ZObject(shape) =>
      (forall i, j | 0 <= i < j < |shape| :: shape[i].0 != shape[j].0) &&
      (forall i | 0 <= i < |shape| :: WellFormed(shape[i].1))
    case _ => true
  }

  /** Parsing a successful parse's output again yields that output: zod's output is a
      fixed point of the schema. */
  lemma {:induction false} ParseIdempotent(s: Schema, v: Option<Json>)
    requires WellFormed(s)
    requires SafeParse(s, v).Success?
    ensures SafeParse(s, SafeParse(s, v).data) == SafeParse(s, v)
    decreases s, 1, 0
  {
    match s
    case ZOptional(inner) =>
      if v.Some? { ParseIdempotent(inner, v); }
    case ZArray(_) =>
      ItemsIdempotent(s, v.value.items);
    case ZObject(_) =>
      MembersIdempotent(s, v.value.members, 0);
    case _ =>
  }

  lemma {:induction false} ItemsIdempotent(s: Schema, items: seq<Json>)
    requires s.ZArray? && WellFormed(s)
    requires ParseItems(s, items).Some?
    ensures ParseItems(s, ParseItems(s, items).value) == ParseItems(s, items)
    decreases s, 0, |items|
  {
    if items != [] {
      ParseIdempotent(s.element, Some(items[0]));
      ItemsIdempotent(s, items[1..]);
      var out := ParseItems(s, items).value;
      assert out[1..] == ParseItems(s, items[1..]).value;
    }
  }

  /** The output of parsing members `i..` holds, under each declared name `k`, exactly
      the output of parsing the input member `k`. */
  lemma {:induction false} MemberOutput(s: Schema, m: map<string, Json>, i: nat, k: nat)
    requires s.ZObject? && WellFormed(s)
    requires i <= k < |s.shape|
    requires ParseMembers(s, m, i).Some?
    ensures Member(JObject(ParseMembers(s, m, i).value), s.shape[k].0)
         == SafeParse(s.shape[k].1, Member(JObject(m), s.shape[k].0)).data
    decreases |s.shape| - i
  {
    if k > i {
      MemberOutput(s, m, i + 1, k);
      assert s.shape[i].0 != s.shape[k].0;
      MemberOutputStep(s, m, i, s.shape[k].0);
    } else {
      MemberOutputHead(s, m, i);
    }
  }

  /** Member `i` of the output is the output of parsing input member `i`. */
  lemma MemberOutputHead(s: Schema, m: map<string, Json>, i: nat)
    requires s.ZObject? && WellFormed(s) && i < |s.shape|
    requires ParseMembers(s, m, i).Some?
    ensures Member(JObject(ParseMembers(s, m, i).value), s.shape[i].0)
         == SafeParse(s.shape[i].1, Member(JObject(m), s.shape[i].0)).data
  {
    LaterKeys(s, i);
  }

  /** A name other than member `i`'s reads the same in the output of members `i..` as
      in the output of members `i + 1..`. */
  lemma MemberOutputStep(s: Schema, m: map<string, Json>, i: nat, name: string)
    requires s.ZObject? && i < |s.shape| && name != s.shape[i].0
    requires ParseMembers(s, m, i).Some?
    ensures Member(JObject(ParseMembers(s, m, i).value), name)
         == Member(JObject(ParseMembers(s, m, i + 1).value), name)
  {
  }

  /** In a well-formed object schema no later member repeats member `i`'s name. */
  lemma LaterKeys(s: Schema, i: nat)
    requires s.ZObject? && WellFormed(s) && i < |s.shape|
    ensures s.shape[i].0 !in ShapeKeys(s.shape[i + 1..])
  {
    var later := s.shape[i + 1..];
    forall j | 0 <= j < |later| ensures later[j].0 != s.shape[i].0 {
      assert later[j] == s.shape[i + 1 + j];
    }
  }

  /** A successful parse of an object holds, under each declared name, the output of
      parsing the input's member of that name. */
  lemma ObjectOutput(s: Schema, v: Option<Json>, k: nat)
    requires s.ZObject? && WellFormed(s) && k < |s.shape|
    requires SafeParse(s, v).Success?
    ensures SafeParse(s, v).data.Some?
    ensures Member(SafeParse(s, v).data.value, s.shape[k].0)
         == SafeParse(s.shape[k].1, Member(v.value, s.shape[k].0)).data
  {
    MemberOutput(s, v.value.members, 0, k);
  }

  /** Reparsing the whole output object reproduces the output of members `i..`. */
  lemma {:induction false} MembersIdempotent(s: Schema, m: map<string, Json>, i: nat)
    requires s.ZObject? && WellFormed(s) && i <= |s.shape|
    requires ParseMembers(s, m, 0).Some?
    ensures ParseMembers(s, ParseMembers(s, m, 0).value, i) == ParseMembers(s, m, i)
    decreases s, 0, |s.shape| - i
  {
    if i < |s.shape| {
      var out := ParseMembers(s, m, 0).value;
      var (key, member) := s.shape[i];
      var v := Member(JObject(m), key);
      assert SafeParse(member, Member(JObject(out), key)) == SafeParse(member, v) by {
        MemberOutput(s, m, 0, i);
        assert WellFormed(member) && Accepts(member, v);
        ParseIdempotent(member, v);
      }
      assert ParseMembers(s, out, i + 1) == ParseMembers(s, m, i + 1) by {
        MembersIdempotent(s, m, i + 1);
      }
      MembersStep(s, out, m, i);
    }
  }

  /** Two objects whose member `i` parses alike and whose members `i + 1..` parse alike
      parse alike from member `i` on. */
  lemma MembersStep(s: Schema, m1: map<string, Json>, m2: map<string, Json>, i: nat)
    requires s.ZObject? && i < |s.shape|
    requires SafeParse(s.shape[i].1, Member(JObject(m1), s.shape[i].0))
          == SafeParse(s.shape[i].1, Member(JObject(m2), s.shape[i].0))
    requires ParseMembers(s, m1, i + 1) == ParseMembers(s, m2, i + 1)
    ensures ParseMembers(s, m1, i) == ParseMembers(s, m2, i)
  {
  }

  /** What `parse` returns conforms to the schema it was parsed with. */
  lemma OutputConforms(s: Schema, v: Option<Json>)
    requires WellFormed(s)
    requires SafeParse(s, v).Success?
    ensures Accepts(s, SafeParse(s, v).data)
  {
    ParseIdempotent(s, v);
  }
}
